=== FILE: README.md ===
# ai-playground chat relay — a Dafny model

The backend of ai-playground sits between a browser chat client and the OpenRouter
completion API. It saves conversations ("chats") and their messages in a relational
store. Its one piece of real engineering is `OpenRouterService.Chat`, the streaming
relay. The relay:

- saves the new messages of a request;
- sends the conversation upstream as `{model, messages, stream}`;
- creates an empty assistant message;
- copies every upstream line to the caller while buffering it;
- afterwards, parses the buffer to rebuild the assistant's text and token usage, and
  writes them into that message.

Around the relay, the chat controller has a few small rules:

- how `HandleChat` picks a new or an existing chat;
- the page arithmetic of the chat list;
- star toggling on chats and messages;
- forking a chat at a message.

The model has six modules:

- `Common`: `Option`, `Result`, `Outcome` and bytes.
- `Models`: the `Chat` and `Message` records and an abstract store of two tables. Each
  table has an auto-increment key, and key order is creation order.
- `StreamParse`: splitting the buffer on `'\n'` and the parse fold. It also holds
  reference definitions of what the fold computes: the decoded records, their text, and
  their last usage object.
- `Relay`: `OpenRouterService.Chat` as a method over the store. The upstream endpoint is
  a function from the payload to a response. The caller's writer is a predicate saying
  whether its k-th write succeeds. JSON decoding is a `Decoder` parameter. The method
  returns the ordered trace of its store writes, its upstream call and its caller writes.
- `Paging`: `strconv.Atoi`, the page number, the offset, the 15-row window and
  `hasMore`. The offset and the `hasMore` sum are computed in Go's 64-bit `int`. GORM
  writes an `OFFSET` clause only for a positive offset, so a zero or negative offset
  reads from the first row.
- `ChatController`: chat resolution in `HandleChat` and its composition with the relay,
  the star toggles, and the fork.

The model follows the code, including where the code behaves differently from what one
might expect:

- **No model name on the relay's own chat.** When the relay itself creates a chat
  (`chatID == 0`), the chat gets no model name (`models.Chat{}`). It is not tagged with
  the requested model. Only the controller's own creation sets the model name. The model
  also proves that the controller always passes a nonzero key on, so the relay's create
  branch is never reached from `HandleChat`.
- **Content and usage are written separately.** The content update always happens. The
  usage update is a second write, and it happens only when some counter is nonzero.
- **Pages past the 64-bit range wrap.** `Atoi` accepts any page up to 2^63-1, and
  `(pageNum - 1) * 15` wraps for pages past `MaxInt64 / 15 + 1`. `Paging.ListChats`
  computes with the wrapped offset, as the handler does; see "Findings".
- **A trailing fragment is dropped.** A fragment without a final `'\n'` at end of stream
  is neither relayed nor buffered. So the caller receives every complete line, not every
  byte.
- **The record types are out of date.** `backend/models/chat.go` lacks the token counts
  and the fork lineage fields (`ParentID`, `ForkMessageID`), but the service and the
  controller read and write them. The model's records include them.

## Model

| member | source | states |
|---|---|---|
| StreamParse.Split | backend/services/openrouter_service.go:239 | `bytes.Split` on `'\n'`: at least one piece, no piece holds a newline, and joining the pieces with newlines gives the buffer back |
| StreamParse.SplitJoin | backend/services/openrouter_service.go:239 | splitting the newline-join of newline-free pieces gives the same pieces back, the inverse direction of the round trip |
| StreamParse.Payload | backend/services/openrouter_service.go:243-252 | a line yields a payload exactly when it starts with the bytes `data: ` and the rest is not `[DONE]`; the payload is then the rest of the line; empty lines yield none |
| StreamParse.Decoded | backend/services/openrouter_service.go:246-258 | a line yields at most one record |
| StreamParse.Step | backend/services/openrouter_service.go:242-271 | one iteration of the parse loop: the text only grows, and a line that yields no record (empty, no `data: ` prefix, `[DONE]`, or a payload that does not decode) leaves text and counters unchanged |
| StreamParse.Fold | backend/services/openrouter_service.go:242-273 | the parse loop over a sequence of lines: the text only grows, and lines none of which yields a record leave text and counters as they were |
| StreamParse.Parse | backend/services/openrouter_service.go:235-273 | the reconstruction of the buffered response: a buffer none of whose lines yields a record gives empty text and zero counters |
| StreamParse.LastUsage | backend/services/openrouter_service.go:261-265 | no usage exactly when no record carries one; otherwise the usage of a record after which no record carries one (last write wins) |
| StreamParse.StepMeaning | backend/services/openrouter_service.go:246-271 | one line appends the first-choice delta text of its decoded record and takes over that record's usage, if any; a line that does not decode changes nothing |
| StreamParse.FoldMeaning | backend/services/openrouter_service.go:242-273 | the parse loop appends the texts of the decoded records in order and ends with the counters of the last record carrying usage, or the starting counters if none does |
| StreamParse.ParseMeaning | backend/services/openrouter_service.go:235-273 | the reconstructed content is the in-order concatenation of the fragments of the decodable data lines of the buffer; the counters are the last usage seen, zero when none |
| StreamParse.SplitLines | backend/services/openrouter_service.go:221 | a buffer made of complete lines splits into their bodies plus one empty trailing piece |
| StreamParse.ParseLines | backend/services/openrouter_service.go:239-273 | the same meaning stated over the relayed lines: text and usage of the records decoded from their bodies |
| StreamParse.ParseExtend | backend/services/openrouter_service.go:242-272 | parsing is incremental: one more line adds exactly that line's contribution to the text |
| StreamParse.DataLine | backend/services/openrouter_service.go:246-252 | `data: ` plus a payload plus `'\n'` is one line, whose payload is the payload unless it is `[DONE]` |
| StreamParse.HelloScenario | backend/services/openrouter_service.go:239-273 | two data lines carrying "Hel" and "lo" followed by `data: [DONE]` rebuild "Hello" with zero counters |
| Relay.ApiMessages | backend/services/openrouter_service.go:139-149 | one upstream message per request message, same order, each carrying exactly that message's role and content |
| Relay.ApiPayload | backend/services/openrouter_service.go:133-149 | the body sent upstream: the request's model and stream flag, and per request message, in order, a message of exactly its role and content |
| Relay.PayloadIgnoresBookkeeping | backend/services/openrouter_service.go:133-149 | the payload depends only on model, stream flag and roles and contents: ids, chat ids and model names never reach upstream |
| Relay.NewPositions | backend/services/openrouter_service.go:111-115 | the positions of exactly the request messages with id 0, in increasing order |
| Relay.NewRowsMeaning | backend/services/openrouter_service.go:111-127 | the k-th saved row is the k-th new request message, bound to the resolved chat, tagged with the request's model, unstarred and uncounted; messages with an id are never saved |
| Relay.RowsForChat | backend/services/openrouter_service.go:110-127 | every row saved for a request carries the chat the request resolved to, so the saves keep the stored rows in place and add rows of that chat only |
| Relay.FirstLine | backend/services/openrouter_service.go:212 | `ReadBytes('\n')` yields a line exactly when the rest holds a newline; the line is a prefix ending in the first newline |
| Relay.LinesOf | backend/services/openrouter_service.go:211-218 | the successive results of `ReadBytes('\n')`, each a single newline-terminated line |
| Relay.LinesOfPrefix | backend/services/openrouter_service.go:211-218 | the lines read are the longest newline-terminated prefix of the body; what remains holds no newline |
| Relay.ReadLine | backend/services/openrouter_service.go:212-218 | `ReadBytes('\n')`: no line exactly when no full line is left; otherwise the next line, and the lines after it are the lines of what remains |
| Relay.WrittenMeaning | backend/services/openrouter_service.go:224-226 | the recursive "writes 0 to n - 1 succeed" used by the tee loop is the same as every one of those writes succeeding |
| Relay.Delivered | backend/services/openrouter_service.go:211-227 | how many of n lines reach the caller: every write before it succeeds, and the write at it fails unless all n were written |
| Relay.DeliveredUnique | backend/services/openrouter_service.go:211-227 | any count with those two properties is that count, so the relayed prefix is fixed by the writer alone |
| Relay.Tee | backend/services/openrouter_service.go:211-232 | the relayed lines are a prefix of the body's lines, each successfully written; the buffer is their concatenation; clean end means all lines relayed; a read error comes only after all lines; a failed write stops at the first failing line, which was buffered but not relayed |
| Relay.LoadOrCreateChat | backend/services/openrouter_service.go:97-108 | a nonzero key loads the chat or fails with nothing written; key 0 creates one chat with default columns and uses its fresh key |
| Relay.SaveNewMessages | backend/services/openrouter_service.go:110-127 | appends exactly the rows for the new request messages, in request order, with matching creation effects |
| Relay.Complete | backend/services/openrouter_service.go:277-292 | the content update always happens; the usage update happens after it and only when a counter is nonzero, otherwise the counts are untouched |
| Relay.CompleteMeaning | backend/services/openrouter_service.go:235-292 | completing a placeholder from the buffer of the relayed lines writes their reply text and their last usage, and the effects name the same values |
| Relay.Respond | backend/services/openrouter_service.go:196-292 | one assistant placeholder (role assistant, empty content, no model name) appended before any line; the relayed lines are exactly the body's lines before the first failed write, each written successfully; the row is filled with the parsed reply only when every line was relayed and the stream ended cleanly; a failed write is reported as such and is the write after the relayed ones; a read error is reported only after every line was relayed; on failure the row stays empty and the trace is the placeholder and the relayed prefix |
| Relay.Prepare | backend/services/openrouter_service.go:97-127 | resolution then saving of new messages: the stores and trace before the upstream call |
| Relay.UpstreamError | backend/services/openrouter_service.go:167-185 | the error for a refused call: a connection failure gives the request error and nothing else does; a non-200 answer gives the API error with the decoded message and code, or the bare status when the body does not decode; never a load, read or write error |
| Relay.Chat | backend/services/openrouter_service.go:94-295 | unknown chat: error, no writes, nothing sent; otherwise the call upstream, with the projected payload, is recorded in the effects after the chat creation and the saved request rows and before the assistant row; every row added belongs to the resolved chat; a refused answer (connection failure, non-200 with or without error body) is reported and creates no assistant row; an accepted one appends exactly one assistant row after the saved request rows; the lines before the first failed write are relayed; the row is filled with the reconstructed text and usage exactly when the stream completed and every write succeeded; otherwise it stays empty and the error is a failed write if one occurred, a read error if not; the effects are listed in order |
| Paging.Atoi | backend/controllers/chat_controller.go:78 | succeeds only on one or more decimal digits after an optional '+' or '-'; on such input it succeeds exactly when the signed value fits in 64 bits, and the result is that value |
| Paging.AtoiDecimal | backend/controllers/chat_controller.go:78 | parsing the decimal rendering of any non-negative 64-bit value gives it back |
| Paging.PageNumber | backend/controllers/chat_controller.go:75-81 | the parsed page when it parses and is at least 1, else 1 (also for a missing parameter); always between 1 and the 64-bit maximum |
| Paging.PageNumberRoundTrip | backend/controllers/chat_controller.go:75-81 | every page number in range is selected by its decimal rendering; no parameter selects page 1 |
| Paging.Wrap64 | backend/controllers/chat_controller.go:83 | the 64-bit result lies in range and is congruent to the exact value modulo 2^64 |
| Paging.Wrap64Identity | backend/controllers/chat_controller.go:83 | 64-bit arithmetic changes a value exactly when it does not fit in 64 bits |
| Paging.OffsetAsWritten | backend/controllers/chat_controller.go:83 | the offset as Go computes it: a 64-bit value congruent to `(pageNum - 1) * 15` modulo 2^64, which need not be that product |
| Paging.Offset | backend/controllers/chat_controller.go:76-83 | the offset is non-negative, a multiple of 15, and counts the rows of the pages before |
| Paging.OffsetAsWrittenAgrees | backend/controllers/chat_controller.go:83 | the 64-bit offset equals the intended one exactly up to page `MaxInt64 / 15 + 1` |
| Paging.OffsetOverflowWitness | backend/controllers/chat_controller.go:78-83 | `page=1000000000000000000` is accepted and yields offset -3446744073709551631 |
| Paging.Window | backend/controllers/chat_controller.go:93-94 | `Limit(15).Offset(offset)`: min(15, rows left) rows, none past the end, the i-th being row `offset + i` |
| Paging.HasMore | backend/controllers/chat_controller.go:144 | `offset+len(chats) < int(total)` in 64-bit `int`: whenever the sum fits in 64 bits it is exactly the comparison of the true sum with the total |
| Paging.ListChats | backend/controllers/chat_controller.go:75-152 | the page is the one `PageNumber` parses from the parameter (1 when absent or invalid), and at most 15 chats; for every page up to `MaxInt64 / 15 + 1`, exactly the rows of its window (min(15, rows left), the i-th being root `offset + i`) and `hasMore` exactly when the next page is not empty |
| Paging.ListChatsOverflowWitness | backend/controllers/chat_controller.go:78-144 | with 20 root chats, `page=1000000000000000000` serves the first 15 chats and `hasMore` true, although that page starts past the last row |
| ChatController.ResolveChat | backend/controllers/chat_controller.go:36-56 | a nonzero id loads the chat or fails with not-found; id 0 creates exactly one chat with the request's model; the key passed on is never 0 |
| ChatController.HandleChat | backend/controllers/chat_controller.go:23-71 | existing chat: no chat created, no header; unknown chat: not-found and nothing written; id 0: exactly one chat, with the request's model, announced in the header, and the relay's own create branch is never taken; not-found exactly for a nonzero unknown key; for a resolving request, success exactly when the upstream accepted, every line reached the caller and the stream ended cleanly, and otherwise the relay's error (refused call, failed write, failed read) is reported; the stored messages stay in place and every row added belongs to the chat loaded or created, the one announced in the header for a new chat |
| ChatController.RelayTo | backend/controllers/chat_controller.go:66-70 | the relay call for a chat that exists: no chat is created, the stored messages stay in place, every row added belongs to that chat, success exactly when the call was accepted, every line was delivered and the stream ended cleanly, and otherwise the relay's error is reported |
| ChatController.ToggleChatStar | backend/controllers/chat_controller.go:188-206 | unknown chat: not-found; otherwise returns and stores the negated flag and no other chat, field or message changes |
| ChatController.ToggleChatStarTwice | backend/controllers/chat_controller.go:198-200 | toggling a chat's star twice restores the store |
| ChatController.ToggleMessageStar | backend/controllers/chat_controller.go:208-226 | unknown message: not-found; otherwise returns and stores the negated flag and no other message, field or chat changes |
| ChatController.ToggleMessageStarTwice | backend/controllers/chat_controller.go:218-220 | toggling a message's star twice restores the store |
| ChatController.FirstIndex | backend/controllers/chat_controller.go:274-277 | the position of the first message with the given id, the length when there is none |
| ChatController.ForkPrefix | backend/controllers/chat_controller.go:273-277 | the longest prefix without the fork message: it never contains it, is followed by it when shorter, and is everything when it is absent |
| ChatController.CopyUntil | backend/controllers/chat_controller.go:273-292 | the copy loop appends, in order, one copy per prefix message: role, content, model and counts kept, bound to the fork, not starred |
| ChatController.ForkChat | backend/controllers/chat_controller.go:252-296 | unknown original: not-found and nothing written; otherwise one fork chat with the original's model, parent and fork message, then the copies of the prefix, which are exactly what reading the fork back yields |
| Models.Store.FindChat | backend/controllers/chat_controller.go:192 | `First(&chat, id)`: the stored chat with that key, or none when no stored chat has it |
| Models.Store.FindMessage | backend/controllers/chat_controller.go:212 | `First(&message, id)`: the stored message with that key, or none when no stored message has it |
| Models.Store.CreateChat | backend/services/openrouter_service.go:104 | `Create(&chat)`: the chat is appended under a fresh nonzero key that no stored chat had, and nothing else changes |
| Models.Store.CreateMessage | backend/services/openrouter_service.go:124 | `Create(&message)`: the message is appended under a fresh nonzero key, and nothing else changes |
| Models.Store.SaveChat | backend/controllers/chat_controller.go:200 | `Save(&chat)`: the chat with that key is replaced and every other chat and all messages stay as they were |
| Models.Store.SaveMessage | backend/controllers/chat_controller.go:220 | `Save(&message)`: the message with that key is replaced and every other message and all chats stay as they were |
| Models.MessagesInMembers | backend/controllers/chat_controller.go:254-256 | loading a chat's messages selects exactly the stored messages that belong to it |
| ChatController.ForkReadBack | backend/controllers/chat_controller.go:254-256 | the rows appended for a fresh chat are exactly the messages read back for that chat |

## Left out

- Store failures: every GORM write is modelled as succeeding. So the "error creating/saving/updating" returns of the relay and the 500 answers of the handlers are not modelled. Only not-found lookups are.
- JSON: marshalling the payload is not modelled, and neither is its error path. Decoding a stream payload is an uninterpreted `Decoder`. Decoding the error body of a refused call is part of the `Upstream` value.
- HTTP mechanics: the following are outside the model, because they are framework or network calls.
  - Request building and headers.
  - The API key and `.env` loading.
  - `http.Flusher`.
  - SSE response headers.
  - Gin's JSON binding and its 400 answer.
  - Status codes and JSON error bodies.
  - Debug `Printf` calls.
- Partial writes: a caller write either delivers the whole line or fails. A write that delivers part of a line is not modelled.
- Read failures: a read failure is placed after the last complete line the body holds. What the upstream had sent up to the failure is the `body` value.
- Timestamps and soft deletion: not modelled. The `deleted_at` filter and `created_at` ordering are stood in for by key order. `HandleDeleteChat` is left out.
- Thin lookups: `HandleGetChat`, `HandleNewChat`, `HandleGetChatForks`, `HandleGetParentForkMessage` and `GetChatHistory` are single store reads or inserts with no rule of their own.
- Chat list queries: the root-chat query (`parent_id IS NULL`, newest first) is not modelled. Neither is the per-chat message count (`GROUP BY chat_id`). `Paging.ListChats` takes the ordered root chats as input.
- Path ids: the model covers numeric ids only, taken as natural numbers. The handlers pass the path string `c.Param("id")` to `First` as is. GORM uses a string that parses as an integer as a primary key, but puts any other string into the `WHERE` clause as a raw query condition. Such non-numeric path ids are not modelled.
- Fork edits: the fork request's `newContent` field is accepted but never used by the source, so it is not modelled.
- Concurrency: concurrent requests interleaving inserts on one chat is a property of the store, not of this code.
- Paging.ListChats: past page `MaxInt64 / 15 + 1` the contract states only the page number and the bounds on the chats, because the wrapped offset then depends on the page modulo 2^64. `Paging.ListChatsOverflowWitness` shows one such page.
- ChatController.HandleChat: states the chat bookkeeping, which chat the added rows belong to, when the request succeeds and which error it reports. It does not restate the contents of the rows the relay saves or the lines it relays: `Relay.Chat`, which it calls, states those.

## Findings

| source | as written | input that shows it | evidently intended | confidence | as-written member | corrected member |
|---|---|---|---|---|---|---|
| backend/controllers/chat_controller.go:83 | `offset := (pageNum - 1) * pageSize` in 64-bit `int`; `Atoi` accepts any page up to 2^63-1 | `GET /chats?page=1000000000000000000` gives offset -3446744073709551631. With 20 root chats the query then ignores the offset, the first 15 chats come back, and `hasMore` is true | the offset counts the rows of the pages before, so it is never negative; pages past `MaxInt64 / 15 + 1` should be rejected or clamped | high, derived from the arithmetic; not executed | Paging.ListChatsOverflowWitness | Paging.Offset |

=== FILE: common.dfy ===
/** Small shared vocabulary: optional values, results, outcomes and bytes. */
module Common {

  /** A value that may be absent (a Go nil, a failed decode). */
  datatype Option<+T> = None | Some(value: T) {
    function GetOr(default: T): T {
      match this
      case Some(v) => v
      case None => default
    }
  }

  /** A computed value or the error that stopped the computation. */
  datatype Result<+T, +E> = Ok(value: T) | Err(error: E)

  /** The Go `error` return of a procedure that yields nothing else. */
  datatype Outcome<+E> = Pass | Fail(error: E)

  /** One octet of the upstream byte stream. */
  newtype byte = x: int | 0 <= x < 256

  type bytes = seq<byte>

  /** Concatenation of a sequence of byte strings, in order. */
  function Flatten(chunks: seq<bytes>): bytes {
    if |chunks| == 0 then [] else chunks[0] + Flatten(chunks[1..])
  }

  lemma {:induction false} FlattenAppend(a: seq<bytes>, b: seq<bytes>)
    ensures Flatten(a + b) == Flatten(a) + Flatten(b)
    decreases |a|
  {
    if |a| == 0 {
      assert a + b == b;
    } else {
      assert (a + b)[1..] == a[1..] + b;
      FlattenAppend(a[1..], b);
    }
  }
}

=== FILE: controller.dfy ===
/**
 * The route handlers with rules of their own: chat resolution before the
 * relay (`HandleChat`), star toggling (`HandleToggleChatStar`,
 * `HandleToggleMessageStar`) and forking (`HandleForkChat`). Paging of the
 * chat list is in module `Paging`.
 */
module ChatController {
  import opened Common
  import opened Models
  import opened StreamParse
  import Relay

  datatype Failure =
    | ChatNotFound
    | MessageNotFound
    | OriginalChatNotFound
    | RelayFailed(error: Relay.RelayError)

  // ---------------------------------------------------------------------------
  // HandleChat
  // ---------------------------------------------------------------------------

  /**
   * The chat a chat request goes to: the stored chat named by a nonzero
   * `chatID`, or a chat created for the request's model when `chatID` is 0.
   * Either way the key handed on is nonzero.
   */
  function ResolveChat(store: Store, req: Relay.ChatRequest): (r: Result<(Store, nat), Failure>)
    requires store.Valid()
    ensures r.Ok? ==> r.value.0.Valid() && r.value.1 != 0 && r.value.0.FindChat(r.value.1).Some?
    ensures req.chatID != 0 ==>
              && (r.Ok? <==> store.FindChat(req.chatID).Some?)
              && (r.Ok? ==> r.value == (store, req.chatID))
              && (r.Err? ==> r.error == ChatNotFound)
    ensures req.chatID == 0 ==>
              && r.Ok? && store.FindChat(r.value.1).None?
              && r.value.0.chats == store.chats + [NewChat(req.model).(id := r.value.1)]
              && r.value.0.messages == store.messages
  {
    if req.chatID != 0 then
      if store.FindChat(req.chatID).Some? then Ok((store, req.chatID)) else Err(ChatNotFound)
    else
      Ok(store.CreateChat(NewChat(req.model)))
  }

  /**
   * The error the relay reports when a resolved chat's request does not
   * succeed: the refused call's own error, else a failed write to the caller
   * if one happened before the last line, else the failed read.
   */
  function RelayErrorOf(u: Relay.Upstream, writeOk: nat -> bool): Relay.RelayError {
    if !Relay.Accepted(u) then Relay.UpstreamError(u)
    else
      var lines := Relay.LinesOf(u.body);
      if Relay.Delivered(writeOk, |lines|) < |lines| then Relay.ResponseWriteFailed else Relay.StreamReadFailed
  }

  /**
   * `HandleChat`: resolve the chat, announce a new chat's key in the
   * `X-Chat-ID` header, then run the relay on the resolved key.
   */
  method HandleChat(store: Store, req: Relay.ChatRequest,
                    upstream: Relay.ApiRequest -> Relay.Upstream, writeOk: nat -> bool, decode: Decoder)
    returns (outcome: Outcome<Failure>, store': Store, chatHeader: Option<nat>)
    requires store.Valid()
    ensures store'.Valid()
    // An existing chat is loaded, and no chat is created.
    ensures req.chatID != 0 ==> store'.chats == store.chats && chatHeader == None
    ensures req.chatID != 0 && store.FindChat(req.chatID).None? ==>
              outcome == Fail(ChatNotFound) && store' == store
    // Otherwise exactly one chat is created, for the request's model, and the
    // relay's own create branch is never taken.
    ensures req.chatID == 0 ==>
              && store'.chats == store.chats + [NewChat(req.model).(id := |store.chats| + 1)]
              && chatHeader == Some(|store.chats| + 1)
    // Not-found is reported exactly for a nonzero key naming no chat.
    ensures outcome == Fail(ChatNotFound) <==> req.chatID != 0 && store.FindChat(req.chatID).None?
    ensures outcome.Fail? && outcome.error != ChatNotFound ==> outcome.error.RelayFailed?
    // Once the chat resolves, success means the upstream accepted the call,
    // every line reached the caller and the stream ended cleanly; any other
    // ending is reported with the relay's own error.
    ensures req.chatID == 0 || store.FindChat(req.chatID).Some? ==>
              var u := upstream(Relay.ApiPayload(req));
              && (outcome.Pass? <==>
                    && Relay.Accepted(u) && u.end == Relay.EndOfStream
                    && Relay.Delivered(writeOk, |Relay.LinesOf(u.body)|) == |Relay.LinesOf(u.body)|)
              && (outcome.Fail? ==> outcome.error == RelayFailed(RelayErrorOf(u, writeOk)))
    // The relay writes to the resolved chat: the stored messages stay in
    // place, and every row added belongs to the chat loaded or created.
    ensures req.chatID == 0 || store.FindChat(req.chatID).Some? ==>
              var chat := if req.chatID == 0 then |store.chats| + 1 else req.chatID;
              && store.messages <= store'.messages
              && forall i | |store.messages| <= i < |store'.messages| :: store'.messages[i].chatID == chat
  {
    chatHeader := None;
    var resolved := ResolveChat(store, req);
    if resolved.Err? {
      outcome, store' := Fail(resolved.error), store;
      return;
    }
    var chat;
    store', chat := resolved.value.0, resolved.value.1;
    if req.chatID == 0 {
      chatHeader := Some(chat);
    }
    outcome, store' := RelayTo(store', req, chat, upstream, writeOk, decode);
  }

  /**
   * The relay run for a chat that exists, as `HandleChat` calls it: it adds
   * rows to that chat only, and its error, if any, is reported as a relay failure.
   */
  method RelayTo(store: Store, req: Relay.ChatRequest, chat: nat,
                 upstream: Relay.ApiRequest -> Relay.Upstream, writeOk: nat -> bool, decode: Decoder)
    returns (outcome: Outcome<Failure>, store': Store)
    requires store.Valid() && chat != 0 && store.FindChat(chat).Some?
    ensures store'.Valid() && store'.chats == store.chats
    ensures store.messages <= store'.messages
    ensures forall i | |store.messages| <= i < |store'.messages| :: store'.messages[i].chatID == chat
    ensures var u := upstream(Relay.ApiPayload(req));
            && (outcome.Pass? <==>
                  && Relay.Accepted(u) && u.end == Relay.EndOfStream
                  && Relay.Delivered(writeOk, |Relay.LinesOf(u.body)|) == |Relay.LinesOf(u.body)|)
            && (outcome.Fail? ==> outcome.error == RelayFailed(RelayErrorOf(u, writeOk)))
  {
    var result, sent, trace;
    result, store', sent, trace := Relay.Chat(store, req, chat, upstream, writeOk, decode);
    outcome := if result.Pass? then Pass else Fail(RelayFailed(result.error));
  }

  // ---------------------------------------------------------------------------
  // Star toggling
  // ---------------------------------------------------------------------------

  /** `HandleToggleChatStar`: flip the chat's star, save it, and answer with the new flag. */
  function ToggleChatStar(store: Store, id: nat): (r: Result<(Store, bool), Failure>)
    requires store.Valid()
    ensures r.Err? <==> store.FindChat(id).None?
    ensures r.Err? ==> r.error == ChatNotFound
    ensures r.Ok? ==>
              var c := store.FindChat(id).value;
              && r.value.1 == !c.starred
              && r.value.0.Valid()
              && r.value.0.FindChat(id) == Some(c.(starred := !c.starred))
              && |r.value.0.chats| == |store.chats|
              && (forall other | other != id :: r.value.0.FindChat(other) == store.FindChat(other))
              && r.value.0.messages == store.messages
  {
    match store.FindChat(id)
    case None => Err(ChatNotFound)
    case Some(c) =>
      var flipped := c.(starred := !c.starred);
      Ok((store.SaveChat(flipped), flipped.starred))
  }

  /** Toggling a chat's star twice gives back the store it started from. */
  lemma ToggleChatStarTwice(store: Store, id: nat)
    requires store.Valid() && store.FindChat(id).Some?
    ensures var once := ToggleChatStar(store, id);
            once.Ok? && ToggleChatStar(once.value.0, id) == Ok((store, store.FindChat(id).value.starred))
  {
    var c := store.chats[id - 1];
    var flipped := c.(starred := !c.starred);
    assert store.chats[id - 1 := flipped][id - 1 := c] == store.chats;
  }

  /** `HandleToggleMessageStar`: flip the message's star, save it, and answer with the new flag. */
  function ToggleMessageStar(store: Store, id: nat): (r: Result<(Store, bool), Failure>)
    requires store.Valid()
    ensures r.Err? <==> store.FindMessage(id).None?
    ensures r.Err? ==> r.error == MessageNotFound
    ensures r.Ok? ==>
              var m := store.FindMessage(id).value;
              && r.value.1 == !m.starred
              && r.value.0.Valid()
              && r.value.0.FindMessage(id) == Some(m.(starred := !m.starred))
              && |r.value.0.messages| == |store.messages|
              && (forall other | other != id :: r.value.0.FindMessage(other) == store.FindMessage(other))
              && r.value.0.chats == store.chats
  {
    match store.FindMessage(id)
    case None => Err(MessageNotFound)
    case Some(m) =>
      var flipped := m.(starred := !m.starred);
      Ok((store.SaveMessage(flipped), flipped.starred))
  }

  /** Toggling a message's star twice gives back the store it started from. */
  lemma ToggleMessageStarTwice(store: Store, id: nat)
    requires store.Valid() && store.FindMessage(id).Some?
    ensures var once := ToggleMessageStar(store, id);
            once.Ok? && ToggleMessageStar(once.value.0, id) == Ok((store, store.FindMessage(id).value.starred))
  {
    var m := store.messages[id - 1];
    var flipped := m.(starred := !m.starred);
    assert store.messages[id - 1 := flipped][id - 1 := m] == store.messages;
  }

  // ---------------------------------------------------------------------------
  // Forking
  // ---------------------------------------------------------------------------

  /** The position of the first message with key `id`, or the length when there is none. */
  function FirstIndex(msgs: seq<Message>, id: nat): (k: nat)
    ensures k <= |msgs|
    ensures forall j | 0 <= j < k :: msgs[j].id != id
    ensures k < |msgs| ==> msgs[k].id == id
    decreases |msgs|
  {
    if |msgs| == 0 then 0
    else if msgs[0].id == id then 0
    else 1 + FirstIndex(msgs[1..], id)
  }

  /**
   * The messages a fork copies: the longest prefix of the original's messages
   * without the message `id`. That message is never copied; when it is absent,
   * everything is.
   */
  function ForkPrefix(msgs: seq<Message>, id: nat): (r: seq<Message>)
    ensures r <= msgs
    ensures forall i | 0 <= i < |r| :: r[i].id != id
    ensures |r| < |msgs| ==> msgs[|r|].id == id
    ensures (forall i | 0 <= i < |msgs| :: msgs[i].id != id) ==> r == msgs
  {
    msgs[..FirstIndex(msgs, id)]
  }

  /** The copy of `m` in the fork: same role, content, model and counts; not starred; bound to the fork. */
  function Copy(m: Message, id: nat, chatID: nat): Message {
    Message(id, chatID, m.role, m.content, m.modelName, false, m.promptTokens, m.completionTokens, m.totalTokens)
  }

  /** The chat a fork creates: the original's model, with the original and the fork point as lineage. */
  function ForkOf(original: Chat, id: nat, messageID: nat): Chat {
    Chat(id, original.modelName, false, Some(original.id), Some(messageID))
  }

  /** The copied rows, keyed consecutively from `firstID`. */
  predicate CopiedFrom(rows: seq<Message>, prefix: seq<Message>, firstID: nat, chatID: nat) {
    |rows| == |prefix| && forall i | 0 <= i < |rows| :: rows[i] == Copy(prefix[i], firstID + i, chatID)
  }

  /**
   * `HandleForkChat`: create the fork chat, then copy the original's messages
   * in order until the one whose key is `messageID`, which is not copied.
   * Reading the fork back yields exactly the copies.
   */
  method ForkChat(store: Store, chatID: nat, messageID: nat) returns (r: Result<nat, Failure>, store': Store)
    requires store.Valid()
    ensures store'.Valid()
    ensures store.FindChat(chatID).None? ==> r == Err(OriginalChatNotFound) && store' == store
    ensures store.FindChat(chatID).Some? ==>
              var forkID := |store.chats| + 1;
              var prefix := ForkPrefix(store.MessagesOf(chatID), messageID);
              && r == Ok(forkID)
              && store'.chats == store.chats + [ForkOf(store.FindChat(chatID).value, forkID, messageID)]
              && |store.messages| <= |store'.messages|
              && store'.messages[..|store.messages|] == store.messages
              && CopiedFrom(store'.messages[|store.messages|..], prefix, |store.messages| + 1, forkID)
              && store'.MessagesOf(forkID) == store'.messages[|store.messages|..]
  {
    var original := store.FindChat(chatID);
    if original.None? {
      r, store' := Err(OriginalChatNotFound), store;
      return;
    }
    var msgs := store.MessagesOf(chatID);
    var created := store.CreateChat(ForkOf(original.value, 0, messageID));
    var forkID := created.1;
    store' := CopyUntil(created.0, msgs, messageID, forkID);
    r := Ok(forkID);
    ForkReadBack(store, store', forkID);
  }

  /**
   * The copy loop of `HandleForkChat`: walk `msgs` in order, stop at the
   * message whose key is `messageID`, and insert a copy of each message before
   * it into chat `forkID`.
   */
  method CopyUntil(store: Store, msgs: seq<Message>, messageID: nat, forkID: nat) returns (store': Store)
    requires store.Valid() && 1 <= forkID <= |store.chats|
    ensures store'.Valid() && store'.chats == store.chats
    ensures |store.messages| <= |store'.messages| && store'.messages[..|store.messages|] == store.messages
    ensures CopiedFrom(store'.messages[|store.messages|..], ForkPrefix(msgs, messageID), |store.messages| + 1, forkID)
  {
    store' := store;
    ghost var rows: seq<Message> := [];
    var i := 0;
    while i < |msgs|
      invariant 0 <= i <= FirstIndex(msgs, messageID)
      invariant store'.Valid() && store'.chats == store.chats
      invariant store'.messages == store.messages + rows
      invariant CopiedFrom(rows, msgs[..i], |store.messages| + 1, forkID)
    {
      var msg := msgs[i];
      if msg.id == messageID {
        break;
      }
      var saved := store'.CreateMessage(Copy(msg, 0, forkID));
      CopiedStep(rows, msgs, i, |store.messages| + 1, forkID);
      rows := rows + [Copy(msg, |store.messages| + 1 + i, forkID)];
      store' := saved.0;
      i := i + 1;
    }
    assert msgs[..i] == ForkPrefix(msgs, messageID);
    assert store'.messages[|store.messages|..] == rows;
  }

  lemma CopiedStep(rows: seq<Message>, msgs: seq<Message>, i: nat, firstID: nat, chatID: nat)
    requires i < |msgs| && CopiedFrom(rows, msgs[..i], firstID, chatID)
    ensures CopiedFrom(rows + [Copy(msgs[i], firstID + i, chatID)], msgs[..i + 1], firstID, chatID)
  {
    assert msgs[..i + 1] == msgs[..i] + [msgs[i]];
  }

  /** The rows appended for a fresh chat are exactly what reading that chat back yields. */
  lemma ForkReadBack(store: Store, after: Store, forkID: nat)
    requires store.Valid() && |store.chats| < forkID
    requires |store.messages| <= |after.messages| && after.messages[..|store.messages|] == store.messages
    requires forall i | |store.messages| <= i < |after.messages| :: after.messages[i].chatID == forkID
    ensures after.MessagesOf(forkID) == after.messages[|store.messages|..]
  {
    var copies := after.messages[|store.messages|..];
    assert store.messages + copies == after.messages;
    AppendedReadBack(store.messages, copies, forkID);
  }

  lemma AppendedReadBack(before: seq<Message>, copies: seq<Message>, forkID: nat)
    requires forall i | 0 <= i < |before| :: before[i].chatID < forkID
    requires forall i | 0 <= i < |copies| :: copies[i].chatID == forkID
    ensures MessagesIn(before + copies, forkID) == copies
  {
    MessagesInAppend(before, copies, forkID);
    MessagesInNone(before, forkID);
    MessagesInAll(copies, forkID);
  }
}

=== FILE: models.dfy ===
/**
 * The persisted records (a chat and its messages) and the abstract store that
 * holds them. The store stands in for the relational database: a table of
 * chats and a table of messages, each with an auto-increment primary key.
 */
module Models {
  import opened Common

  /** A conversation. `parentID` and `forkMessageID` record fork lineage. */
  datatype Chat = Chat(
    id: nat,
    modelName: string,
    starred: bool,
    parentID: Option<nat>,
    forkMessageID: Option<nat>)

  /** One turn of a conversation, with the token counts reported for it. */
  datatype Message = Message(
    id: nat,
    chatID: nat,
    role: string,
    content: string,
    modelName: string,
    starred: bool,
    promptTokens: int,
    completionTokens: int,
    totalTokens: int)

  /** A chat as inserted by `Create(&models.Chat{ModelName: m})`: every other column at its default. */
  function NewChat(model: string): Chat {
    Chat(0, model, false, None, None)
  }

  /**
   * The two tables. The record at index i carries primary key i + 1, so keys
   * are handed out in creation order and 0 is never a key.
   */
  datatype Store = Store(chats: seq<Chat>, messages: seq<Message>) {

    predicate Valid() {
      && (forall i | 0 <= i < |chats| :: chats[i].id == i + 1)
      && (forall i | 0 <= i < |messages| :: messages[i].id == i + 1)
      && (forall i | 0 <= i < |messages| :: 1 <= messages[i].chatID <= |chats|)
    }

    /** `First(&chat, id)`: the chat with primary key `id`, if there is one. */
    function FindChat(id: nat): (r: Option<Chat>)
      requires Valid()
      ensures r.Some? ==> r.value.id == id && r.value in chats
      ensures r.None? ==> forall c | c in chats :: c.id != id
    {
      if 1 <= id <= |chats| then Some(chats[id - 1]) else None
    }

    /** `First(&message, id)`: the message with primary key `id`, if there is one. */
    function FindMessage(id: nat): (r: Option<Message>)
      requires Valid()
      ensures r.Some? ==> r.value.id == id && r.value in messages
      ensures r.None? ==> forall m | m in messages :: m.id != id
    {
      if 1 <= id <= |messages| then Some(messages[id - 1]) else None
    }

    /** `Create(&chat)`: inserts the chat under a fresh key and returns the store and the key. */
    function CreateChat(c: Chat): (r: (Store, nat))
      requires Valid()
      ensures r.1 != 0 && FindChat(r.1).None?
      ensures r.0.Valid() && r.0.FindChat(r.1) == Some(c.(id := r.1))
      ensures r.0.chats == chats + [c.(id := r.1)] && r.0.messages == messages
    {
      var id := |chats| + 1;
      (Store(chats + [c.(id := id)], messages), id)
    }

    /** `Create(&message)`: inserts the message under a fresh key and returns the store and the key. */
    function CreateMessage(m: Message): (r: (Store, nat))
      requires Valid() && 1 <= m.chatID <= |chats|
      ensures r.1 != 0 && FindMessage(r.1).None?
      ensures r.0.Valid() && r.0.FindMessage(r.1) == Some(m.(id := r.1))
      ensures r.0.messages == messages + [m.(id := r.1)] && r.0.chats == chats
    {
      var id := |messages| + 1;
      (Store(chats, messages + [m.(id := id)]), id)
    }

    /** `Save(&chat)`: overwrites the stored chat whose key is `c.id`. */
    function SaveChat(c: Chat): (r: Store)
      requires Valid() && FindChat(c.id).Some?
      ensures r.Valid() && r.FindChat(c.id) == Some(c) && r.messages == messages
      ensures |r.chats| == |chats|
      ensures forall id | id != c.id :: r.FindChat(id) == FindChat(id)
    {
      Store(chats[c.id - 1 := c], messages)
    }

    /** `Save(&message)` and `Model(&message).Update(...)`: overwrites the stored message whose key is `m.id`. */
    function SaveMessage(m: Message): (r: Store)
      requires Valid() && FindMessage(m.id).Some? && 1 <= m.chatID <= |chats|
      ensures r.Valid() && r.FindMessage(m.id) == Some(m) && r.chats == chats
      ensures |r.messages| == |messages|
      ensures forall id | id != m.id :: r.FindMessage(id) == FindMessage(id)
    {
      Store(chats, messages[m.id - 1 := m])
    }

    /** `Preload("Messages")` ordered by creation: the messages of chat `chatID`, oldest first. */
    function MessagesOf(chatID: nat): seq<Message> {
      MessagesIn(messages, chatID)
    }
  }

  /** The messages of `ms` that belong to chat `chatID`, in their order in `ms`. */
  function MessagesIn(ms: seq<Message>, chatID: nat): seq<Message>
    decreases |ms|
  {
    if |ms| == 0 then []
    else MessagesIn(ms[..|ms| - 1], chatID)
         + (if ms[|ms| - 1].chatID == chatID then [ms[|ms| - 1]] else [])
  }

  /** The selection holds exactly the rows of `ms` that belong to `chatID`. */
  lemma {:induction false} MessagesInMembers(ms: seq<Message>, chatID: nat)
    ensures forall m | m in MessagesIn(ms, chatID) :: m in ms && m.chatID == chatID
    ensures forall m | m in ms && m.chatID == chatID :: m in MessagesIn(ms, chatID)
    decreases |ms|
  {
    if |ms| > 0 {
      var front := ms[..|ms| - 1];
      MessagesInMembers(front, chatID);
      assert ms == front + [ms[|ms| - 1]];
    }
  }

  /** Selecting by chat distributes over appending rows to the table. */
  lemma {:induction false} MessagesInAppend(a: seq<Message>, b: seq<Message>, chatID: nat)
    ensures MessagesIn(a + b, chatID) == MessagesIn(a, chatID) + MessagesIn(b, chatID)
    decreases |b|
  {
    if |b| == 0 {
      assert a + b == a;
    } else {
      var b' := b[..|b| - 1];
      assert (a + b)[..|a + b| - 1] == a + b';
      MessagesInAppend(a, b', chatID);
    }
  }

  /** A table none of whose rows belong to `chatID` contributes nothing to that chat. */
  lemma {:induction false} MessagesInNone(ms: seq<Message>, chatID: nat)
    requires forall i | 0 <= i < |ms| :: ms[i].chatID != chatID
    ensures MessagesIn(ms, chatID) == []
    decreases |ms|
  {
    if |ms| > 0 {
      var front := ms[..|ms| - 1];
      assert forall i | 0 <= i < |front| :: front[i] == ms[i];
      MessagesInNone(front, chatID);
    }
  }

  /** A table all of whose rows belong to `chatID` is selected whole. */
  lemma {:induction false} MessagesInAll(ms: seq<Message>, chatID: nat)
    requires forall i | 0 <= i < |ms| :: ms[i].chatID == chatID
    ensures MessagesIn(ms, chatID) == ms
    decreases |ms|
  {
    if |ms| > 0 {
      var front := ms[..|ms| - 1];
      assert forall i | 0 <= i < |front| :: front[i] == ms[i];
      MessagesInAll(front, chatID);
      assert MessagesIn(ms, chatID) == MessagesIn(front, chatID) + [ms[|ms| - 1]];
      assert front + [ms[|ms| - 1]] == ms;
    }
  }
}

=== FILE: paging.dfy ===
/**
 * Paging of the chat list (`HandleGetChats`): the `page` query parameter is
 * parsed with `strconv.Atoi`, anything unparsable or below 1 becomes page 1,
 * pages hold 15 chats, and `hasMore` says whether rows remain after this page.
 *
 * Go's `int` is 64 bits wide on the platforms the server targets, so the
 * parser's range and the wrap-around of the offset arithmetic are modelled
 * for 64 bits.
 */
module Paging {
  import opened Common

  const PageSize: int := 15

  const MinInt64: int := -0x8000_0000_0000_0000
  const MaxInt64: int := 0x7fff_ffff_ffff_ffff

  /** 2^64, the modulus of 64-bit two's-complement arithmetic. */
  const Modulus64: int := 0x1_0000_0000_0000_0000

  // ---------------------------------------------------------------------------
  // strconv.Atoi
  // ---------------------------------------------------------------------------

  predicate IsDigit(c: char) {
    '0' <= c <= '9'
  }

  predicate AllDigits(s: string) {
    forall i | 0 <= i < |s| :: IsDigit(s[i])
  }

  /** The value of a string of decimal digits, most significant first. */
  function DigitsValue(s: string): nat
    requires AllDigits(s)
    decreases |s|
  {
    if |s| == 0 then 0
    else DigitsValue(s[..|s| - 1]) * 10 + (s[|s| - 1] as int - '0' as int)
  }

  /**
   * `strconv.Atoi` for base 10: an optional '+' or '-', then one or more ASCII
   * digits (no underscores, no spaces), with a value that fits in 64 bits.
   * Everything else is an error.
   */
  function Atoi(s: string): (r: Option<int>)
    ensures r.Some? ==> MinInt64 <= r.value <= MaxInt64
    ensures r.Some? ==>
              || (|s| > 0 && AllDigits(s))
              || (|s| > 1 && (s[0] == '-' || s[0] == '+') && AllDigits(s[1..]))
    ensures |s| > 0 && AllDigits(s) ==>
              && (r.Some? <==> DigitsValue(s) <= MaxInt64)
              && (r.Some? ==> r.value == DigitsValue(s))
    ensures |s| > 1 && s[0] == '+' && AllDigits(s[1..]) ==>
              && (r.Some? <==> DigitsValue(s[1..]) <= MaxInt64)
              && (r.Some? ==> r.value == DigitsValue(s[1..]))
    ensures |s| > 1 && s[0] == '-' && AllDigits(s[1..]) ==>
              && (r.Some? <==> DigitsValue(s[1..]) <= -MinInt64)
              && (r.Some? ==> r.value == -(DigitsValue(s[1..]) as int))
  {
    var signed := |s| > 0 && (s[0] == '-' || s[0] == '+');
    var digits := if signed then s[1..] else s;
    if |digits| == 0 || !AllDigits(digits) then None
    else
      var magnitude: int := DigitsValue(digits);
      var v: int := if signed && s[0] == '-' then -magnitude else magnitude;
      if MinInt64 <= v <= MaxInt64 then Some(v) else None
  }

  /** The decimal rendering of `n`, without sign or leading zeros. */
  function Decimal(n: nat): (s: string)
    ensures |s| >= 1 && AllDigits(s)
    ensures s[0] != '-' && s[0] != '+'
    decreases n
  {
    var d := ['0' + (n % 10) as char];
    if n < 10 then d else Decimal(n / 10) + d
  }

  lemma {:induction false} DigitsValueDecimal(n: nat)
    ensures DigitsValue(Decimal(n)) == n
    decreases n
  {
    var s := Decimal(n);
    if n >= 10 {
      DigitsValueDecimal(n / 10);
      assert s[..|s| - 1] == Decimal(n / 10);
    }
  }

  /** Parsing the decimal rendering of a non-negative 64-bit value gives the value back. */
  lemma AtoiDecimal(n: nat)
    requires n <= MaxInt64
    ensures Atoi(Decimal(n)) == Some(n)
  {
    DigitsValueDecimal(n);
  }

  // ---------------------------------------------------------------------------
  // Page number, offset, hasMore
  // ---------------------------------------------------------------------------

  /**
   * The page number: the `page` parameter ("1" when absent) if it parses to a
   * value of at least 1, and 1 otherwise.
   */
  function PageNumber(page: Option<string>): (p: int)
    ensures 1 <= p <= MaxInt64
    ensures var parsed := Atoi(page.GetOr("1"));
            p == if parsed.Some? && parsed.value >= 1 then parsed.value else 1
  {
    match Atoi(page.GetOr("1"))
    case Some(v) => if v < 1 then 1 else v
    case None => 1
  }

  /** Any page in range can be asked for by its decimal number; a missing parameter means page 1. */
  lemma PageNumberRoundTrip(n: int)
    requires 1 <= n <= MaxInt64
    ensures PageNumber(Some(Decimal(n))) == n
    ensures PageNumber(None) == 1
  {
    AtoiDecimal(n);
    AtoiDecimal(1);
  }

  /** 64-bit two's-complement wrap-around of an unbounded integer. */
  function Wrap64(x: int): (r: int)
    ensures MinInt64 <= r <= MaxInt64
    ensures (r - x) % Modulus64 == 0
  {
    (x - MinInt64) % Modulus64 + MinInt64
  }

  /** Wrapping changes exactly the values that do not fit in 64 bits. */
  lemma Wrap64Identity(x: int)
    ensures Wrap64(x) == x <==> MinInt64 <= x <= MaxInt64
  {
    if MinInt64 <= x <= MaxInt64 {
      assert 0 <= x - MinInt64 < Modulus64;
    }
  }

  /** `offset := (pageNum - 1) * pageSize` as the Go code computes it, in 64-bit `int`. */
  function OffsetAsWritten(pageNum: int): (o: int)
    ensures MinInt64 <= o <= MaxInt64
    ensures (o - (pageNum - 1) * PageSize) % Modulus64 == 0
  {
    Wrap64((pageNum - 1) * PageSize)
  }

  /** The offset of a page: the number of rows on the pages before it. */
  function Offset(pageNum: int): (o: int)
    requires pageNum >= 1
    ensures o >= 0 && o % PageSize == 0 && o / PageSize == pageNum - 1
  {
    (pageNum - 1) * PageSize
  }

  /** The largest page number whose offset still fits in a 64-bit `int`. */
  const LastSafePage: int := MaxInt64 / PageSize + 1

  /** The computed offset is the intended one exactly up to `LastSafePage`. */
  lemma OffsetAsWrittenAgrees(pageNum: int)
    requires 1 <= pageNum <= MaxInt64
    ensures OffsetAsWritten(pageNum) == Offset(pageNum) <==> pageNum <= LastSafePage
  {
    Wrap64Identity((pageNum - 1) * PageSize);
  }

  /**
   * A page number the parser accepts makes the computed offset negative:
   * `?page=1000000000000000000` gives offset -3446744073709551631.
   */
  lemma OffsetOverflowWitness()
    ensures PageNumber(Some(Decimal(1_000_000_000_000_000_000))) == 1_000_000_000_000_000_000
    ensures OffsetAsWritten(1_000_000_000_000_000_000) == -3_446_744_073_709_551_631
    ensures Offset(1_000_000_000_000_000_000) > 0
  {
    PageNumberRoundTrip(1_000_000_000_000_000_000);
    OffsetOverflowArithmetic();
  }

  /** The wrapped product behind `OffsetOverflowWitness`. */
  lemma OffsetOverflowArithmetic()
    ensures OffsetAsWritten(1_000_000_000_000_000_000) == -3_446_744_073_709_551_631
  {
    var product := (1_000_000_000_000_000_000 - 1) * PageSize;
    assert product == 14_999_999_999_999_999_985;
    assert product - MinInt64 == Modulus64 + 5_776_627_963_145_224_177;
    assert (product - MinInt64) % Modulus64 == 5_776_627_963_145_224_177;
  }

  /**
   * `Limit(pageSize).Offset(offset)` over the ordered rows: the up to 15 rows
   * from position `offset` on.
   */
  function Window<T>(all: seq<T>, offset: int): (w: seq<T>)
    requires offset >= 0
    ensures |w| == if offset >= |all| then 0 else Min(PageSize, |all| - offset)
    ensures forall i | 0 <= i < |w| :: offset + i < |all| && w[i] == all[offset + i]
  {
    if offset >= |all| then []
    else if offset + PageSize <= |all| then all[offset..offset + PageSize]
    else all[offset..]
  }

  function Min(a: int, b: int): int {
    if a <= b then a else b
  }

  /**
   * The offset the query builder sends: GORM writes an `OFFSET` clause only
   * for a positive offset, so zero and negative offsets read from the first row.
   */
  function SqlOffset(offset: int): (o: nat)
    ensures offset > 0 ==> o == offset
    ensures offset <= 0 ==> o == 0
  {
    if offset > 0 then offset else 0
  }

  /** `hasMore := offset+len(chats) < int(total)`, the sum taken in 64-bit `int`. */
  function HasMore(offset: int, count: int, total: int): (more: bool)
    ensures MinInt64 <= offset + count <= MaxInt64 ==> (more <==> offset + count < total)
  {
    Wrap64(offset + count) < total
  }

  /** The JSON body of the chat list: the page's chats, the total, the page number, the page size and `hasMore`. */
  datatype ChatPage<T> = ChatPage(chats: seq<T>, total: int, page: int, pageSize: int, hasMore: bool)

  /**
   * `HandleGetChats` over the ordered root chats (`roots`, newest first), with
   * the offset computed in 64-bit arithmetic as written. For every page up to
   * `LastSafePage` the result is the intended one: the page asked for (never
   * below 1), exactly the rows of its 15-row window, and a `hasMore` that holds
   * exactly when the next page is not empty. Beyond it the wrapped offset
   * decides (see `ListChatsOverflowWitness`).
   */
  function ListChats<T>(roots: seq<T>, page: Option<string>): (r: ChatPage<T>)
    requires |roots| <= MaxInt64
    ensures r.page == PageNumber(page) && r.pageSize == PageSize && r.total == |roots|
    ensures |r.chats| <= PageSize
    ensures r.hasMore ==> |r.chats| == PageSize || r.page > LastSafePage
    ensures r.page <= LastSafePage ==>
              && |r.chats| == (if Offset(r.page) >= |roots| then 0 else Min(PageSize, |roots| - Offset(r.page)))
              && (forall i | 0 <= i < |r.chats| :: r.chats[i] == roots[Offset(r.page) + i])
              && (r.hasMore <==> |Window(roots, Offset(r.page + 1))| > 0)
  {
    var pageNum := PageNumber(page);
    var offset := OffsetAsWritten(pageNum);
    var chats := Window(roots, SqlOffset(offset));
    OffsetAsWrittenAgrees(pageNum);
    Wrap64Identity(offset + |chats|);
    ChatPage(chats, |roots|, pageNum, PageSize, HasMore(offset, |chats|, |roots|))
  }

  /**
   * Past `LastSafePage` the handler as written serves the wrong rows:
   * `?page=1000000000000000000` over 20 root chats wraps the offset negative,
   * the first 15 chats come back, and `hasMore` is true although page
   * 10^18 lies far beyond the last row.
   */
  lemma ListChatsOverflowWitness<T>(roots: seq<T>)
    requires |roots| == 20
    ensures var r := ListChats(roots, Some(Decimal(1_000_000_000_000_000_000)));
            && r.page == 1_000_000_000_000_000_000
            && r.chats == roots[..PageSize] && r.hasMore
            && Offset(r.page) >= |roots|
  {
    OffsetOverflowWitness();
    WrappedPage(roots, Some(Decimal(1_000_000_000_000_000_000)), OffsetAsWritten(1_000_000_000_000_000_000));
  }

  /** A page whose offset wrapped negative reads from the first row. */
  lemma WrappedPage<T>(roots: seq<T>, page: Option<string>, offset: int)
    requires |roots| == 20
    requires offset == OffsetAsWritten(PageNumber(page)) == -3_446_744_073_709_551_631
    ensures var r := ListChats(roots, page); r.chats == roots[..PageSize] && r.hasMore
  {
    assert SqlOffset(offset) == 0;
    Wrap64Identity(offset + PageSize);
  }
}

=== FILE: relay.dfy ===
/**
 * The completion streaming relay (`OpenRouterService.Chat`): resolve the
 * chat, save the new request messages, send the projected payload upstream,
 * create an empty assistant placeholder, copy every upstream line to the
 * caller while buffering it, then parse the buffer and write the assembled
 * text and the token usage into the placeholder.
 *
 * The store is a value passed in and returned. The upstream endpoint is a
 * function from the payload to its response, the caller's writer is a
 * predicate saying whether its k-th write succeeds, and JSON decoding is a
 * `Decoder`. The relay also returns the ordered trace of its effects on the
 * store and on the caller, so that the order of the writes can be stated.
 */
module Relay {
  import opened Common
  import opened Models
  import opened StreamParse

  /** A message of the client's request. `id` 0 means it has not been saved yet. */
  datatype RequestMessage = RequestMessage(id: nat, chatID: nat, role: string, content: string, modelName: string)

  datatype ChatRequest = ChatRequest(model: string, messages: seq<RequestMessage>, stream: bool, chatID: nat)

  /** A message as the upstream endpoint receives it: role and content only. */
  datatype ApiMessage = ApiMessage(role: string, content: string)

  /** The body sent upstream: model, messages and the stream flag, nothing else. */
  datatype ApiRequest = ApiRequest(model: string, messages: seq<ApiMessage>, stream: bool)

  /** The decoded `{"error": {"message", "code"}}` body of a refused call. */
  datatype ApiErrorBody = ApiErrorBody(message: string, code: int)

  /** How reading the response body ends once no full line is left: cleanly (EOF) or with a read error. */
  datatype StreamEnd = EndOfStream | ReadFailure

  /** What the upstream call gives back. `errorBody` is the decode of the body of a non-200 answer. */
  datatype Upstream =
    | ConnectFailure
    | Response(status: int, errorBody: Option<ApiErrorBody>, body: bytes, end: StreamEnd)

  datatype RelayError =
    | ChatLoadFailed
    | RequestFailed
    | StatusFailed(status: int)
    | ApiFailed(message: string, code: int)
    | StreamReadFailed
    | ResponseWriteFailed

  /**
   * An observable effect of the relay, on the store, on the caller or, for
   * `Requested`, the upstream call with the payload it sends.
   */
  datatype Effect =
    | ChatCreated(chat: Chat)
    | MessageCreated(message: Message)
    | Relayed(line: bytes)
    | ContentUpdated(messageID: nat, content: string)
    | UsageUpdated(messageID: nat, usage: Usage)
    | Requested(request: ApiRequest)

  const OK: int := 200

  // ---------------------------------------------------------------------------
  // Request projection and the messages to save
  // ---------------------------------------------------------------------------

  /** The upstream messages: one per request message, same order, role and content only. */
  function ApiMessages(ms: seq<RequestMessage>): (r: seq<ApiMessage>)
    ensures |r| == |ms|
    ensures forall i | 0 <= i < |ms| :: r[i].role == ms[i].role && r[i].content == ms[i].content
    decreases |ms|
  {
    if |ms| == 0 then [] else [ApiMessage(ms[0].role, ms[0].content)] + ApiMessages(ms[1..])
  }

  /** The payload sent upstream for a request: its model, its stream flag and each message's role and content. */
  function ApiPayload(req: ChatRequest): (r: ApiRequest)
    ensures r.model == req.model && r.stream == req.stream && |r.messages| == |req.messages|
    ensures forall i | 0 <= i < |req.messages| ::
              r.messages[i] == ApiMessage(req.messages[i].role, req.messages[i].content)
  {
    ApiRequest(req.model, ApiMessages(req.messages), req.stream)
  }

  /**
   * The payload depends on nothing but the model, the stream flag and each
   * message's role and content: ids, chat ids and model names of the request
   * messages, and the request's chat id, never reach upstream.
   */
  lemma PayloadIgnoresBookkeeping(a: ChatRequest, b: ChatRequest)
    requires a.model == b.model && a.stream == b.stream && |a.messages| == |b.messages|
    requires forall i | 0 <= i < |a.messages| ::
               a.messages[i].role == b.messages[i].role && a.messages[i].content == b.messages[i].content
    ensures ApiPayload(a) == ApiPayload(b)
  {
    var x, y := ApiMessages(a.messages), ApiMessages(b.messages);
    assert forall i | 0 <= i < |x| :: x[i] == y[i];
  }

  /** The positions of the request messages that are new (id 0), in increasing order. */
  function NewPositions(ms: seq<RequestMessage>): (p: seq<nat>)
    ensures forall k | 0 <= k < |p| :: p[k] < |ms| && ms[p[k]].id == 0
    ensures forall k, l | 0 <= k < l < |p| :: p[k] < p[l]
    ensures forall j | 0 <= j < |ms| && ms[j].id == 0 :: j in p
    decreases |ms|
  {
    if |ms| == 0 then []
    else
      var n := |ms| - 1;
      var front := NewPositions(ms[..n]);
      assert forall k | 0 <= k < |front| :: ms[front[k]] == ms[..n][front[k]];
      front + (if ms[n].id == 0 then [n] else [])
  }

  /** The row saved for a new request message: the request's model, the resolved chat, nothing starred or counted. */
  function Saved(m: RequestMessage, id: nat, chatID: nat, model: string): Message {
    Message(id, chatID, m.role, m.content, model, false, 0, 0, 0)
  }

  /** The rows the relay inserts for `ms`: one per new message, keyed consecutively from `firstID`. */
  function NewRows(ms: seq<RequestMessage>, firstID: nat, chatID: nat, model: string): seq<Message>
    decreases |ms|
  {
    if |ms| == 0 then []
    else
      var n := |ms| - 1;
      var rows := NewRows(ms[..n], firstID, chatID, model);
      rows + (if ms[n].id == 0 then [Saved(ms[n], firstID + |rows|, chatID, model)] else [])
  }

  /**
   * Exactly the new request messages are saved, in request order: the k-th
   * saved row is the k-th message whose id is 0, bound to the resolved chat,
   * tagged with the request's model and keyed `firstID + k`.
   */
  lemma {:induction false} NewRowsMeaning(ms: seq<RequestMessage>, firstID: nat, chatID: nat, model: string)
    ensures |NewRows(ms, firstID, chatID, model)| == |NewPositions(ms)|
    ensures forall k | 0 <= k < |NewPositions(ms)| ::
              NewRows(ms, firstID, chatID, model)[k] == Saved(ms[NewPositions(ms)[k]], firstID + k, chatID, model)
    decreases |ms|
  {
    if |ms| > 0 {
      var n := |ms| - 1;
      var front := ms[..n];
      NewRowsMeaning(front, firstID, chatID, model);
      var p := NewPositions(front);
      var rows := NewRows(front, firstID, chatID, model);
      var all := NewPositions(ms);
      var allRows := NewRows(ms, firstID, chatID, model);
      assert all == p + (if ms[n].id == 0 then [n] else []);
      assert allRows == rows + (if ms[n].id == 0 then [Saved(ms[n], firstID + |rows|, chatID, model)] else []);
      forall k | 0 <= k < |all|
        ensures allRows[k] == Saved(ms[all[k]], firstID + k, chatID, model)
      {
        if k < |p| {
          assert all[k] == p[k] && allRows[k] == rows[k] && front[p[k]] == ms[p[k]];
        }
      }
    }
  }

  function Creations(rows: seq<Message>): seq<Effect> {
    seq(|rows|, i requires 0 <= i < |rows| => MessageCreated(rows[i]))
  }

  function ChatCreations(chats: seq<Chat>): seq<Effect> {
    seq(|chats|, i requires 0 <= i < |chats| => ChatCreated(chats[i]))
  }

  function Relays(lines: seq<bytes>): seq<Effect> {
    seq(|lines|, i requires 0 <= i < |lines| => Relayed(lines[i]))
  }

  // ---------------------------------------------------------------------------
  // Reading the upstream body
  // ---------------------------------------------------------------------------

  /** `ReadBytes('\n')` when it succeeds: the bytes up to and including the first newline. */
  function FirstLine(s: bytes): (r: Option<bytes>)
    ensures r.None? <==> NL !in s
    ensures r.Some? ==> IsLine(r.value) && r.value <= s
    decreases |s|
  {
    if |s| == 0 then None
    else if s[0] == NL then Some([NL])
    else
      match FirstLine(s[1..])
      case None => None
      case Some(line) =>
        assert ([s[0]] + line)[..|line|] == [s[0]] + line[..|line| - 1];
        Some([s[0]] + line)
  }

  /** The complete lines of `s`, in order, each read by `ReadBytes('\n')`. */
  function LinesOf(s: bytes): (lines: seq<bytes>)
    ensures forall i | 0 <= i < |lines| :: IsLine(lines[i])
    decreases |s|
  {
    match FirstLine(s)
    case None => []
    case Some(line) => [line] + LinesOf(s[|line|..])
  }

  /**
   * The lines read together are the longest prefix of `s` that ends in a
   * newline: what follows them holds no newline, so a trailing fragment
   * without one is not a line.
   */
  lemma {:induction false} LinesOfPrefix(s: bytes)
    ensures Flatten(LinesOf(s)) <= s && NL !in s[|Flatten(LinesOf(s))|..]
    decreases |s|
  {
    match FirstLine(s)
    case None =>
      assert LinesOf(s) == [] && s[0..] == s;
    case Some(line) =>
      LinesOfPrefix(s[|line|..]);
      LinesOfPrefixStep(s, line, s[|line|..]);
  }

  /** The inductive step of `LinesOfPrefix`: the first line, then the prefix of what follows it. */
  lemma LinesOfPrefixStep(s: bytes, line: bytes, tail: bytes)
    requires FirstLine(s) == Some(line) && tail == s[|line|..]
    requires Flatten(LinesOf(tail)) <= tail && NL !in tail[|Flatten(LinesOf(tail))|..]
    ensures Flatten(LinesOf(s)) <= s && NL !in s[|Flatten(LinesOf(s))|..]
  {
    assert LinesOf(s) == [line] + LinesOf(tail);
    FlattenCons(line, LinesOf(tail));
    PrefixStep(s, line, tail, Flatten(LinesOf(tail)));
  }

  lemma FlattenCons(line: bytes, rest: seq<bytes>)
    ensures Flatten([line] + rest) == line + Flatten(rest)
  {
    assert ([line] + rest)[1..] == rest;
  }

  /** A newline-free remainder after a prefix of the tail stays newline-free after the line in front. */
  lemma PrefixStep(s: bytes, line: bytes, tail: bytes, f: bytes)
    requires s == line + tail && line <= s && f <= tail && NL !in tail[|f|..]
    ensures line + f <= s && NL !in s[|line + f|..]
  {
    assert s[|line + f|..] == tail[|f|..];
  }

  lemma FlattenLine(read: seq<bytes>, line: bytes)
    ensures Flatten(read + [line]) == Flatten(read) + line
  {
    FlattenAppend(read, [line]);
    assert Flatten([line]) == line + Flatten([]);
  }

  /** The writes numbered 0 to n - 1 all succeed. */
  predicate Written(writeOk: nat -> bool, n: nat)
    decreases n
  {
    n == 0 || (Written(writeOk, n - 1) && writeOk(n - 1))
  }

  lemma {:induction false} WrittenMeaning(writeOk: nat -> bool, n: nat)
    ensures Written(writeOk, n) <==> forall k: nat | k < n :: writeOk(k)
    decreases n
  {
    if n > 0 {
      WrittenMeaning(writeOk, n - 1);
    }
  }

  /** `ReadBytes('\n')`: the next full line and what is left after it, or none when no full line is left. */
  method ReadLine(rest: bytes) returns (line: Option<bytes>, after: bytes)
    ensures line.None? ==> LinesOf(rest) == []
    ensures line.Some? ==>
              && rest == line.value + after && |after| < |rest|
              && LinesOf(rest) == [line.value] + LinesOf(after)
  {
    line := FirstLine(rest);
    after := rest;
    if line.Some? {
      after := rest[|line.value|..];
      assert rest == line.value + after;
    }
  }

  /**
   * The tee loop: read line after line; append each to the buffer, then write
   * it to the caller. A failed write stops the loop with an error; once no full
   * line is left, a clean end of stream leaves the loop and a read failure
   * stops it with an error. The trailing fragment is never written or buffered.
   */
  method Tee(body: bytes, end: StreamEnd, writeOk: nat -> bool)
    returns (outcome: Outcome<RelayError>, buffer: bytes, sent: seq<bytes>)
    ensures sent <= LinesOf(body)
    ensures Written(writeOk, |sent|)
    ensures outcome.Pass? || outcome == Fail(StreamReadFailed) || outcome == Fail(ResponseWriteFailed)
    ensures outcome.Pass? ==> sent == LinesOf(body) && end == EndOfStream && buffer == Flatten(sent)
    ensures outcome == Fail(StreamReadFailed) ==> sent == LinesOf(body) && end == ReadFailure
    ensures outcome == Fail(ResponseWriteFailed) ==>
              |sent| < |LinesOf(body)| && !writeOk(|sent|)
              && buffer == Flatten(sent) + LinesOf(body)[|sent|]
  {
    ghost var all := LinesOf(body);
    var rest := body;
    buffer, sent := [], [];
    while true
      invariant buffer == Flatten(sent)
      invariant all == sent + LinesOf(rest)
      invariant Written(writeOk, |sent|)
      decreases |rest|
    {
      var next, after := ReadLine(rest);
      if next.None? {
        assert sent == all;
        if end == EndOfStream {
          break;
        }
        outcome := Fail(StreamReadFailed);
        return;
      }
      var line := next.value;
      Appended(all, sent, line, LinesOf(after));
      FlattenLine(sent, line);
      buffer := buffer + line;
      rest := after;
      if !writeOk(|sent|) {
        outcome := Fail(ResponseWriteFailed);
        return;
      }
      sent := sent + [line];
    }
    outcome := Pass;
  }

  /** Moving the next line from the unread lines to the read ones. */
  lemma Appended(all: seq<bytes>, sent: seq<bytes>, line: bytes, later: seq<bytes>)
    requires all == sent + ([line] + later)
    ensures all == (sent + [line]) + later
    ensures sent <= all && |sent| < |all| && all[|sent|] == line
  {
  }

  // ---------------------------------------------------------------------------
  // The relay
  // ---------------------------------------------------------------------------

  /**
   * How many of `n` lines reach the caller: every line before the first write
   * that fails, or all `n` when none fails.
   */
  function Delivered(writeOk: nat -> bool, n: nat): (k: nat)
    ensures k <= n
    ensures Written(writeOk, k)
    ensures k < n ==> !writeOk(k)
    decreases n
  {
    if n == 0 then 0
    else
      var k := Delivered(writeOk, n - 1);
      if k < n - 1 || !writeOk(n - 1) then k else n
  }

  /** A count with the two properties of `Delivered` is `Delivered`. */
  lemma DeliveredUnique(writeOk: nat -> bool, n: nat, k: nat)
    requires k <= n
    requires Written(writeOk, k)
    requires k < n ==> !writeOk(k)
    ensures k == Delivered(writeOk, n)
  {
    WrittenMeaning(writeOk, k);
    WrittenMeaning(writeOk, Delivered(writeOk, n));
  }

  /** The chat the relay writes to is found, or is to be created (`chatID == 0`). */
  predicate Resolves(store: Store, chatID: nat)
    requires store.Valid()
  {
    chatID == 0 || store.FindChat(chatID).Some?
  }

  /** The key of the chat the relay writes to. */
  function TargetChat(store: Store, chatID: nat): nat {
    if chatID == 0 then |store.chats| + 1 else chatID
  }

  /** The chat row the relay's own create branch inserts: every column at its default. */
  function CreatedChat(store: Store, chatID: nat): seq<Chat> {
    if chatID == 0 then [NewChat("").(id := |store.chats| + 1)] else []
  }

  /** The rows the relay saves for a request whose chat resolves. */
  function RowsFor(store: Store, req: ChatRequest, chatID: nat): seq<Message> {
    NewRows(req.messages, |store.messages| + 1, TargetChat(store, chatID), req.model)
  }

  /** Every row saved for a request belongs to the chat the request resolved to. */
  lemma RowsForChat(store: Store, req: ChatRequest, chatID: nat)
    ensures forall i | 0 <= i < |RowsFor(store, req, chatID)| ::
              RowsFor(store, req, chatID)[i].chatID == TargetChat(store, chatID)
    ensures AddsTo(store.messages, store.messages + RowsFor(store, req, chatID), TargetChat(store, chatID))
  {
    NewRowsMeaning(req.messages, |store.messages| + 1, TargetChat(store, chatID), req.model);
  }

  /** `after` keeps the rows of `before` in place, and every row it adds belongs to `chat`. */
  predicate AddsTo(before: seq<Message>, after: seq<Message>, chat: nat) {
    before <= after && forall i | |before| <= i < |after| :: after[i].chatID == chat
  }

  lemma AddsToOne(before: seq<Message>, after: seq<Message>, m: Message, chat: nat)
    requires after == before + [m] && m.chatID == chat
    ensures AddsTo(before, after, chat)
  {
  }

  lemma AddsToTrans(a: seq<Message>, b: seq<Message>, c: seq<Message>, chat: nat)
    requires AddsTo(a, b, chat) && AddsTo(b, c, chat)
    ensures AddsTo(a, c, chat)
  {
    forall i | |a| <= i < |c|
      ensures c[i].chatID == chat
    {
      if i < |b| {
        assert c[i] == b[i];
      }
    }
  }

  /** The effects before the upstream call: the chat creation, if any, then the saved rows. */
  function Opening(store: Store, req: ChatRequest, chatID: nat): seq<Effect> {
    ChatCreations(CreatedChat(store, chatID)) + Creations(RowsFor(store, req, chatID))
  }

  /** The assistant row created before any line is relayed: empty content, no model name. */
  function Placeholder(id: nat, chatID: nat): Message {
    Message(id, chatID, "assistant", "", "", false, 0, 0, 0)
  }

  predicate Accepted(u: Upstream) {
    u.Response? && u.status == OK
  }

  /** The error reported for an upstream answer that is not accepted. */
  function UpstreamError(u: Upstream): (r: RelayError)
    requires !Accepted(u)
    ensures r == RequestFailed <==> u.ConnectFailure?
    ensures u.Response? && u.errorBody.None? ==> r == StatusFailed(u.status)
    ensures u.Response? && u.errorBody.Some? ==> r == ApiFailed(u.errorBody.value.message, u.errorBody.value.code)
    ensures r != ChatLoadFailed && r != StreamReadFailed && r != ResponseWriteFailed
  {
    match u
    case ConnectFailure => RequestFailed
    case Response(status, errorBody, _, _) =>
      match errorBody
      case None => StatusFailed(status)
      case Some(e) => ApiFailed(e.message, e.code)
  }

  predicate AnyTokens(u: Usage) {
    u.promptTokens != 0 || u.completionTokens != 0 || u.totalTokens != 0
  }

  /** The effects after a complete relay: the content update, then the usage update if any counter is nonzero. */
  function Closing(id: nat, text: string, usage: Usage): seq<Effect> {
    [ContentUpdated(id, text)] + (if AnyTokens(usage) then [UsageUpdated(id, usage)] else [])
  }

  /** The reply text persisted for the relayed lines. */
  function Reply(decode: Decoder, lines: seq<bytes>): string
    requires forall i | 0 <= i < |lines| :: IsLine(lines[i])
  {
    Text(Records(decode, Bodies(lines)))
  }

  /** The token counts persisted for the relayed lines: the last usage reported, zero if none. */
  function ReplyUsage(decode: Decoder, lines: seq<bytes>): Usage
    requires forall i | 0 <= i < |lines| :: IsLine(lines[i])
  {
    LastUsage(Records(decode, Bodies(lines))).GetOr(Usage(0, 0, 0))
  }

  /** A message with its content and token counts set. */
  function Filled(m: Message, text: string, usage: Usage): Message {
    m.(content := text, promptTokens := usage.promptTokens,
       completionTokens := usage.completionTokens, totalTokens := usage.totalTokens)
  }

  /** Load the chat, or create an empty one when `chatID` is 0. */
  method LoadOrCreateChat(store: Store, chatID: nat)
    returns (outcome: Outcome<RelayError>, store': Store, chat: nat, trace: seq<Effect>)
    requires store.Valid()
    ensures store'.Valid() && store'.messages == store.messages
    ensures outcome.Pass? <==> Resolves(store, chatID)
    ensures outcome.Fail? ==> outcome.error == ChatLoadFailed && store' == store && trace == []
    ensures outcome.Pass? ==>
              && chat == TargetChat(store, chatID) && store'.FindChat(chat).Some?
              && store'.chats == store.chats + CreatedChat(store, chatID)
              && trace == (if chatID == 0 then [ChatCreated(store'.chats[chat - 1])] else [])
  {
    store', trace := store, [];
    chat := chatID;
    if chatID != 0 {
      if store.FindChat(chatID).None? {
        outcome := Fail(ChatLoadFailed);
        return;
      }
    } else {
      var created := NewChat("");
      var r := store.CreateChat(created);
      store', chat := r.0, r.1;
      trace := [ChatCreated(created.(id := chat))];
    }
    outcome := Pass;
  }

  /** Extending the request prefix by one message extends the rows by that message's row, if it is new. */
  lemma NewRowsStep(ms: seq<RequestMessage>, i: nat, firstID: nat, chatID: nat, model: string)
    requires i < |ms|
    ensures var rows := NewRows(ms[..i], firstID, chatID, model);
            NewRows(ms[..i + 1], firstID, chatID, model)
            == rows + (if ms[i].id == 0 then [Saved(ms[i], firstID + |rows|, chatID, model)] else [])
  {
    assert ms[..i + 1][..i] == ms[..i];
  }

  lemma CreationsStep(rows: seq<Message>, m: Message)
    ensures Creations(rows + [m]) == Creations(rows) + [MessageCreated(m)]
  {
  }

  /** Insert the row for one new request message; it gets the next key. */
  method SaveRow(store: Store, m: RequestMessage, chatID: nat, model: string) returns (store': Store, row: Message)
    requires store.Valid() && 1 <= chatID <= |store.chats|
    ensures store'.Valid() && store'.chats == store.chats
    ensures row == Saved(m, |store.messages| + 1, chatID, model) && store'.messages == store.messages + [row]
  {
    var r := store.CreateMessage(Saved(m, 0, chatID, model));
    store', row := r.0, Saved(m, r.1, chatID, model);
  }

  /** Save, in request order, every request message whose id is 0; skip the others. */
  method SaveNewMessages(store: Store, req: ChatRequest, chatID: nat)
    returns (store': Store, trace: seq<Effect>)
    requires store.Valid() && 1 <= chatID <= |store.chats|
    ensures store'.Valid() && store'.chats == store.chats
    ensures store'.messages == store.messages + NewRows(req.messages, |store.messages| + 1, chatID, req.model)
    ensures trace == Creations(NewRows(req.messages, |store.messages| + 1, chatID, req.model))
  {
    var first := |store.messages| + 1;
    store', trace := store, [];
    ghost var rows: seq<Message> := [];
    var i := 0;
    while i < |req.messages|
      invariant 0 <= i <= |req.messages|
      invariant rows == NewRows(req.messages[..i], first, chatID, req.model)
      invariant store'.Valid() && store'.chats == store.chats
      invariant store'.messages == store.messages + rows
      invariant trace == Creations(rows)
    {
      NewRowsStep(req.messages, i, first, chatID, req.model);
      if req.messages[i].id == 0 {
        var row;
        store', row := SaveRow(store', req.messages[i], chatID, req.model);
        CreationsStep(rows, row);
        trace := trace + [MessageCreated(row)];
        rows := rows + [row];
      }
      i := i + 1;
    }
    assert req.messages[..i] == req.messages;
  }

  /**
   * The final writes on the assistant row: the parsed content, then the token
   * counts only when at least one of them is nonzero.
   */
  method Complete(store: Store, id: nat, buffer: bytes, decode: Decoder)
    returns (store': Store, trace: seq<Effect>)
    requires store.Valid() && store.FindMessage(id).Some?
    ensures var m := store.messages[id - 1];
            var p := Parse(decode, buffer);
            && store'.Valid() && store'.chats == store.chats
            && store'.messages == store.messages[id - 1 := Filled(m, p.content, if AnyTokens(p.Tokens()) then p.Tokens() else Usage(m.promptTokens, m.completionTokens, m.totalTokens))]
            && trace == Closing(id, p.content, p.Tokens())
  {
    var parsed := Parse(decode, buffer);
    var m := store.messages[id - 1];
    store' := store.SaveMessage(m.(content := parsed.content));
    trace := [ContentUpdated(id, parsed.content)];
    if AnyTokens(parsed.Tokens()) {
      store' := store'.SaveMessage(Filled(m, parsed.content, parsed.Tokens()));
      trace := trace + [UsageUpdated(id, parsed.Tokens())];
    }
  }

  /**
   * Completing the row after a full relay: the parsed buffer of the relayed
   * lines gives the reply text and, over the placeholder's zero counts, the
   * last usage reported.
   */
  lemma CompleteMeaning(a: Message, id: nat, decode: Decoder, lines: seq<bytes>)
    requires forall i | 0 <= i < |lines| :: IsLine(lines[i])
    requires a.promptTokens == 0 && a.completionTokens == 0 && a.totalTokens == 0
    ensures var p := Parse(decode, Flatten(lines));
            && Filled(a, p.content, if AnyTokens(p.Tokens()) then p.Tokens()
                                    else Usage(a.promptTokens, a.completionTokens, a.totalTokens))
               == Filled(a, Reply(decode, lines), ReplyUsage(decode, lines))
            && Closing(id, p.content, p.Tokens()) == Closing(id, Reply(decode, lines), ReplyUsage(decode, lines))
  {
    ParseLines(decode, lines);
  }

  /** Insert the empty assistant row for `chat`; it gets the next key. */
  method OpenRow(store: Store, chat: nat) returns (store': Store, id: nat)
    requires store.Valid() && 1 <= chat <= |store.chats|
    ensures store'.Valid() && store'.chats == store.chats
    ensures id == |store.messages| + 1 && store'.messages == store.messages + [Placeholder(id, chat)]
  {
    var r := store.CreateMessage(Placeholder(0, chat));
    store', id := r.0, r.1;
  }

  /** Complete the last row, a placeholder, from the buffered relayed lines. */
  method Finish(store: Store, chat: nat, relayed: seq<bytes>, buffer: bytes, decode: Decoder)
    returns (store': Store, closing: seq<Effect>)
    requires store.Valid() && |store.messages| > 0
    requires store.messages[|store.messages| - 1] == Placeholder(|store.messages|, chat)
    requires forall i | 0 <= i < |relayed| :: IsLine(relayed[i])
    requires buffer == Flatten(relayed)
    ensures var id := |store.messages|;
            var row := Filled(Placeholder(id, chat), Reply(decode, relayed), ReplyUsage(decode, relayed));
            && store'.Valid() && store'.chats == store.chats
            && store'.messages == store.messages[..id - 1] + [row]
            && closing == Closing(id, Reply(decode, relayed), ReplyUsage(decode, relayed))
  {
    var id := |store.messages|;
    store', closing := Complete(store, id, buffer, decode);
    CompleteMeaning(Placeholder(id, chat), id, decode, relayed);
  }

  /**
   * What follows an accepted upstream answer: create the empty assistant row,
   * relay the lines up to the first failed write, and fill the row in only if
   * every line was relayed and the stream ended cleanly.
   */
  method Respond(store: Store, chat: nat, u: Upstream, writeOk: nat -> bool, decode: Decoder)
    returns (outcome: Outcome<RelayError>, store': Store, trace: seq<Effect>, relayed: seq<bytes>)
    requires store.Valid() && 1 <= chat <= |store.chats| && Accepted(u)
    ensures store'.Valid() && store'.chats == store.chats
    ensures forall k: nat | k < |relayed| :: writeOk(k)
    ensures outcome == Fail(ResponseWriteFailed) ==> !writeOk(|relayed|)
    ensures outcome == Fail(StreamReadFailed) ==> u.end == ReadFailure && relayed == LinesOf(u.body)
    ensures var id := |store.messages| + 1;
            var a := Placeholder(id, chat);
            var lines := LinesOf(u.body);
            var n := Delivered(writeOk, |lines|);
            && relayed == lines[..n]
            && (outcome.Pass? <==> u.end == EndOfStream && n == |lines|)
            && (outcome.Fail? ==>
                  && outcome.error == (if n < |lines| then ResponseWriteFailed else StreamReadFailed)
                  && store'.messages == store.messages + [a]
                  && trace == [MessageCreated(a)] + Relays(relayed))
            && (outcome.Pass? ==>
                  && store'.messages == store.messages + [Filled(a, Reply(decode, lines), ReplyUsage(decode, lines))]
                  && trace == [MessageCreated(a)] + Relays(lines)
                              + Closing(id, Reply(decode, lines), ReplyUsage(decode, lines)))
  {
    var id;
    store', id := OpenRow(store, chat);
    trace := [MessageCreated(Placeholder(id, chat))];

    var buffer;
    outcome, buffer, relayed := Tee(u.body, u.end, writeOk);
    ghost var lines := LinesOf(u.body);
    DeliveredUnique(writeOk, |lines|, |relayed|);
    WrittenMeaning(writeOk, |relayed|);
    assert relayed == lines[..|relayed|];
    trace := trace + Relays(relayed);
    if outcome.Fail? {
      return;
    }

    var closing;
    assert store'.messages[..id - 1] == store.messages;
    store', closing := Finish(store', chat, relayed, buffer, decode);
    trace := trace + closing;
  }

  /** Resolve the chat and save the new request messages: everything before the upstream call. */
  method Prepare(store: Store, req: ChatRequest, chatID: nat)
    returns (outcome: Outcome<RelayError>, store': Store, chat: nat, trace: seq<Effect>)
    requires store.Valid()
    ensures store'.Valid()
    ensures outcome.Pass? <==> Resolves(store, chatID)
    ensures outcome.Fail? ==> outcome.error == ChatLoadFailed && store' == store && trace == []
    ensures outcome.Pass? ==>
              && chat == TargetChat(store, chatID) && 1 <= chat <= |store'.chats|
              && store'.chats == store.chats + CreatedChat(store, chatID)
              && store'.messages == store.messages + RowsFor(store, req, chatID)
              && trace == Opening(store, req, chatID)
  {
    var prelude;
    outcome, store', chat, prelude := LoadOrCreateChat(store, chatID);
    trace := prelude;
    if outcome.Pass? {
      var saves;
      store', saves := SaveNewMessages(store', req, chat);
      trace := trace + saves;
    }
  }

  /**
   * The upstream call and the relay, once the chat `chatID` of `store` has
   * resolved to `chat` and `mid` holds the saved request messages.
   */
  method Forward(ghost store: Store, req: ChatRequest, ghost chatID: nat, mid: Store, chat: nat,
                 upstream: ApiRequest -> Upstream, writeOk: nat -> bool, decode: Decoder)
    returns (outcome: Outcome<RelayError>, store': Store, rest: seq<Effect>)
    requires store.Valid() && mid.Valid() && 1 <= chat <= |mid.chats|
    requires chat == TargetChat(store, chatID)
    requires mid.messages == store.messages + RowsFor(store, req, chatID)
    ensures store'.Valid() && store'.chats == mid.chats
    ensures AddsTo(mid.messages, store'.messages, chat)
    ensures !Accepted(upstream(ApiPayload(req))) ==>
              && outcome == Fail(UpstreamError(upstream(ApiPayload(req))))
              && store'.messages == mid.messages && rest == [Requested(ApiPayload(req))]
    ensures Accepted(upstream(ApiPayload(req))) ==>
              var u := upstream(ApiPayload(req));
              var lines := LinesOf(u.body);
              var saved := store.messages + RowsFor(store, req, chatID);
              var id := |saved| + 1;
              var a := Placeholder(id, TargetChat(store, chatID));
              var n := Delivered(writeOk, |lines|);
              && (outcome.Pass? <==> u.end == EndOfStream && n == |lines|)
              && (outcome.Fail? ==>
                    && outcome.error == (if n < |lines| then ResponseWriteFailed else StreamReadFailed)
                    && store'.messages == saved + [a]
                    && rest == [Requested(ApiPayload(req))] + ([MessageCreated(a)] + Relays(lines[..n])))
              && (outcome.Pass? ==>
                    && store'.messages == saved + [Filled(a, Reply(decode, lines), ReplyUsage(decode, lines))]
                    && rest == [Requested(ApiPayload(req))]
                               + ([MessageCreated(a)] + Relays(lines)
                                  + Closing(id, Reply(decode, lines), ReplyUsage(decode, lines))))
  {
    var u := upstream(ApiPayload(req));
    var call := [Requested(ApiPayload(req))];
    if !Accepted(u) {
      outcome, store', rest := Fail(UpstreamError(u)), mid, call;
      return;
    }
    var relayed, reply;
    outcome, store', reply, relayed := Respond(mid, chat, u, writeOk, decode);
    rest := call + reply;
    ghost var lines := LinesOf(u.body);
    ghost var a := Placeholder(|mid.messages| + 1, chat);
    if outcome.Pass? {
      AddsToOne(mid.messages, store'.messages, Filled(a, Reply(decode, lines), ReplyUsage(decode, lines)), chat);
    } else {
      AddsToOne(mid.messages, store'.messages, a, chat);
    }
  }

  /**
   * `OpenRouterService.Chat`: relay one request and persist its outcome.
   * `chatID` is the chat to write to, 0 meaning "create one".
   */
  method Chat(store: Store, req: ChatRequest, chatID: nat,
              upstream: ApiRequest -> Upstream, writeOk: nat -> bool, decode: Decoder)
    returns (outcome: Outcome<RelayError>, store': Store, sent: Option<ApiRequest>, trace: seq<Effect>)
    requires store.Valid()
    ensures store'.Valid()
    // An unknown chat stops everything before any write.
    ensures !Resolves(store, chatID) ==>
              outcome == Fail(ChatLoadFailed) && store' == store && sent == None && trace == []
    // Otherwise the chat is created only by the relay's own branch, and the
    // projected payload goes upstream.
    ensures Resolves(store, chatID) ==>
              && sent == Some(ApiPayload(req))
              && store'.chats == store.chats + CreatedChat(store, chatID)
    // Every row the relay adds belongs to the chat it resolved to.
    ensures Resolves(store, chatID) ==> AddsTo(store.messages, store'.messages, TargetChat(store, chatID))
    // A refused upstream call is an error: the new request messages are saved
    // before the call, and no assistant row appears.
    ensures Resolves(store, chatID) && !Accepted(upstream(ApiPayload(req))) ==>
              && outcome == Fail(UpstreamError(upstream(ApiPayload(req))))
              && store'.messages == store.messages + RowsFor(store, req, chatID)
              && trace == Opening(store, req, chatID) + [Requested(ApiPayload(req))]
    // An accepted call adds exactly one assistant row after the saved request
    // messages, created after the call and before any line is relayed. The lines before the first
    // failed write reach the caller; the row is filled in only once every line
    // has been relayed and the stream ended cleanly.
    ensures Resolves(store, chatID) && Accepted(upstream(ApiPayload(req))) ==>
              var u := upstream(ApiPayload(req));
              var lines := LinesOf(u.body);
              var saved := store.messages + RowsFor(store, req, chatID);
              var id := |saved| + 1;
              var a := Placeholder(id, TargetChat(store, chatID));
              var n := Delivered(writeOk, |lines|);
              && (outcome.Pass? <==> u.end == EndOfStream && n == |lines|)
              && (outcome.Fail? ==>
                    && outcome.error == (if n < |lines| then ResponseWriteFailed else StreamReadFailed)
                    && store'.messages == saved + [a]
                    && trace == Opening(store, req, chatID)
                                + ([Requested(ApiPayload(req))] + ([MessageCreated(a)] + Relays(lines[..n]))))
              && (outcome.Pass? ==>
                    && store'.messages == saved + [Filled(a, Reply(decode, lines), ReplyUsage(decode, lines))]
                    && trace == Opening(store, req, chatID)
                                + ([Requested(ApiPayload(req))]
                                   + ([MessageCreated(a)] + Relays(lines)
                                      + Closing(id, Reply(decode, lines), ReplyUsage(decode, lines)))))
  {
    sent := None;
    var chat;
    outcome, store', chat, trace := Prepare(store, req, chatID);
    if outcome.Fail? {
      return;
    }
    sent := Some(ApiPayload(req));
    RowsForChat(store, req, chatID);
    ghost var mid := store';
    var rest;
    outcome, store', rest := Forward(store, req, chatID, store', chat, upstream, writeOk, decode);
    AddsToTrans(store.messages, mid.messages, store'.messages, chat);
    trace := trace + rest;
  }

}

=== FILE: stream_parse.dfy ===
/**
 * Reconstruction of the assistant reply from the buffered upstream stream.
 *
 * The buffer is split on '\n' and folded left to right. A line takes part only
 * when it is non-empty, starts with the exact bytes "data: " and its payload is
 * not "[DONE]"; the payload is then decoded, and a payload that does not decode
 * is skipped. A decoded record contributes the delta text of its first choice
 * (if it has choices) and, if it carries a usage object, overwrites the three
 * token counters. This is a literal prefix rule, not a conforming Server-Sent
 * Events parser (no field names other than the exact prefix, no multi-line
 * events, no '\r' handling).
 *
 * JSON decoding is a library call and is a parameter here (`Decoder`).
 */
module StreamParse {
  import opened Common

  /** '\n' */
  const NL: byte := 10

  /** The bytes of "data: ". */
  const DataPrefix: bytes := [100, 97, 116, 97, 58, 32]

  /** The bytes of "[DONE]". */
  const DoneMarker: bytes := [91, 68, 79, 78, 69, 93]

  datatype Delta = Delta(role: string, content: string)

  datatype StreamChoice = StreamChoice(index: int, delta: Delta, finishReason: string)

  datatype Usage = Usage(promptTokens: int, completionTokens: int, totalTokens: int)

  /** One decoded `data:` payload. `usage` is `None` when the JSON has no usage object. */
  datatype StreamRecord = StreamRecord(id: string, choices: seq<StreamChoice>, usage: Option<Usage>)

  /** `json.Unmarshal` into a stream record: `None` when decoding fails. */
  type Decoder = bytes -> Option<StreamRecord>

  // ---------------------------------------------------------------------------
  // Splitting on '\n'
  // ---------------------------------------------------------------------------

  /** The pieces rejoined with '\n' between consecutive ones. */
  function Join(pieces: seq<bytes>): bytes
    requires |pieces| >= 1
  {
    if |pieces| == 1 then pieces[0] else pieces[0] + [NL] + Join(pieces[1..])
  }

  /**
   * `bytes.Split(s, "\n")`: the maximal '\n'-free pieces of `s`, one more than
   * there are newlines (so the empty input gives one empty piece, and an input
   * ending in '\n' gives an empty last piece).
   */
  function Split(s: bytes): (pieces: seq<bytes>)
    ensures |pieces| >= 1
    ensures forall i | 0 <= i < |pieces| :: NL !in pieces[i]
    ensures Join(pieces) == s
    decreases |s|
  {
    if |s| == 0 then [[]]
    else
      var rest := Split(s[1..]);
      if s[0] == NL then
        assert ([[]] + rest)[1..] == rest;
        [[]] + rest
      else
        assert NL !in [s[0]] + rest[0];
        JoinCons(s[0], rest);
        [[s[0]] + rest[0]] + rest[1..]
  }

  /** Putting a byte in front of the first piece puts it in front of the join. */
  lemma {:induction false} JoinCons(b: byte, pieces: seq<bytes>)
    requires |pieces| >= 1
    ensures Join([[b] + pieces[0]] + pieces[1..]) == [b] + Join(pieces)
  {
    var ps := [[b] + pieces[0]] + pieces[1..];
    if |pieces| == 1 {
      assert ps == [[b] + pieces[0]];
    } else {
      assert ps[1..] == pieces[1..];
      assert Join(ps) == ps[0] + [NL] + Join(pieces[1..]);
      assert Join(pieces) == pieces[0] + [NL] + Join(pieces[1..]);
    }
  }

  /** A '\n'-free prefix is glued onto the first piece of what follows it. */
  lemma {:induction false} SplitFreePrefix(p: bytes, t: bytes)
    requires NL !in p
    ensures Split(p + t) == [p + Split(t)[0]] + Split(t)[1..]
    decreases |p|
  {
    if |p| == 0 {
      assert p + t == t;
      assert p + Split(t)[0] == Split(t)[0];
      assert [Split(t)[0]] + Split(t)[1..] == Split(t);
    } else {
      assert (p + t)[1..] == p[1..] + t;
      SplitFreePrefix(p[1..], t);
      assert [p[0]] + (p[1..] + Split(t)[0]) == p + Split(t)[0];
    }
  }

  /** Splitting undoes joining: the pieces are recovered exactly. */
  lemma {:induction false} SplitJoin(pieces: seq<bytes>)
    requires |pieces| >= 1
    requires forall i | 0 <= i < |pieces| :: NL !in pieces[i]
    ensures Split(Join(pieces)) == pieces
    decreases |pieces|
  {
    if |pieces| == 1 {
      SplitFreePrefix(pieces[0], []);
      assert pieces[0] + [] == pieces[0];
    } else {
      var tail := pieces[1..];
      assert forall i | 0 <= i < |tail| :: tail[i] == pieces[i + 1];
      SplitJoin(tail);
      var u := [NL] + Join(tail);
      assert Split(u) == [[]] + tail by {
        assert u[1..] == Join(tail);
      }
      SplitFreePrefix(pieces[0], u);
      assert Join(pieces) == pieces[0] + u;
      assert Split(u)[0] == [] && Split(u)[1..] == tail;
      assert pieces[0] + [] == pieces[0];
      assert [pieces[0]] + tail == pieces;
    }
  }

  // ---------------------------------------------------------------------------
  // The fold
  // ---------------------------------------------------------------------------

  predicate HasPrefix(s: bytes, prefix: bytes) {
    |prefix| <= |s| && s[..|prefix|] == prefix
  }

  /**
   * The payload of a line the parser takes part in: the bytes after "data: "
   * when the line is non-empty, carries that exact prefix and is not the
   * terminal marker.
   */
  function Payload(line: bytes): (r: Option<bytes>)
    ensures r.Some? <==> HasPrefix(line, DataPrefix) && line[|DataPrefix|..] != DoneMarker
    ensures r.Some? ==> line == DataPrefix + r.value
  {
    if |line| == 0 then None
    else if !HasPrefix(line, DataPrefix) then None
    else
      var data := line[|DataPrefix|..];
      assert line == DataPrefix + data;
      if data == DoneMarker then None else Some(data)
  }

  /** The accumulators of the parse: the assembled text and the three token counters. */
  datatype Parsed = Parsed(content: string, promptTokens: int, completionTokens: int, totalTokens: int) {
    function Tokens(): Usage {
      Usage(promptTokens, completionTokens, totalTokens)
    }
  }

  /** The accumulators before the first line: empty text, all counters zero. */
  const Start: Parsed := Parsed("", 0, 0, 0)

  /**
   * One iteration of the parse loop. The text only grows, and a line that
   * yields no record leaves the accumulators as they were.
   */
  function Step(decode: Decoder, acc: Parsed, line: bytes): (r: Parsed)
    ensures acc.content <= r.content
    ensures Decoded(decode, line) == [] ==> r == acc
  {
    match Payload(line)
    case None => acc
    case Some(data) =>
      match decode(data)
      case None => acc
      case Some(rec) =>
        var counted :=
          if rec.usage.Some?
          then acc.(promptTokens := rec.usage.value.promptTokens,
                    completionTokens := rec.usage.value.completionTokens,
                    totalTokens := rec.usage.value.totalTokens)
          else acc;
        if |rec.choices| > 0
        then counted.(content := counted.content + rec.choices[0].delta.content)
        else counted
  }

  /** No line of `lines` yields a record. */
  predicate Silent(decode: Decoder, lines: seq<bytes>) {
    forall i | 0 <= i < |lines| :: Decoded(decode, lines[i]) == []
  }

  /**
   * The parse loop over `lines`, left to right, starting from `acc`. The text
   * only grows, and lines that yield no record leave the accumulators as they were.
   */
  function Fold(decode: Decoder, acc: Parsed, lines: seq<bytes>): (r: Parsed)
    ensures acc.content <= r.content
    ensures Silent(decode, lines) ==> r == acc
    decreases |lines|
  {
    if |lines| == 0 then acc else Fold(decode, Step(decode, acc, lines[0]), lines[1..])
  }

  /**
   * The whole reconstruction of a buffered stream. A buffer none of whose
   * lines yields a record reconstructs to empty text and zero counters.
   */
  function Parse(decode: Decoder, buffer: bytes): (r: Parsed)
    ensures Silent(decode, Split(buffer)) ==> r == Start
  {
    Fold(decode, Start, Split(buffer))
  }

  // ---------------------------------------------------------------------------
  // Reference definitions: what the fold computes
  // ---------------------------------------------------------------------------

  /** The record a line yields: one when its payload exists and decodes, none otherwise. */
  function Decoded(decode: Decoder, line: bytes): (r: seq<StreamRecord>)
    ensures |r| <= 1
  {
    match Payload(line)
    case None => []
    case Some(data) =>
      match decode(data)
      case None => []
      case Some(rec) => [rec]
  }

  /** The decoded records of `lines`, in line order. */
  function Records(decode: Decoder, lines: seq<bytes>): seq<StreamRecord>
    decreases |lines|
  {
    if |lines| == 0 then [] else Decoded(decode, lines[0]) + Records(decode, lines[1..])
  }

  /** The text a record adds: its first choice's delta content, or nothing when it has no choices. */
  function Fragment(rec: StreamRecord): string {
    if |rec.choices| > 0 then rec.choices[0].delta.content else ""
  }

  /** The fragments of the records, concatenated in order. */
  function Text(recs: seq<StreamRecord>): string
    decreases |recs|
  {
    if |recs| == 0 then "" else Fragment(recs[0]) + Text(recs[1..])
  }

  /** The usage object of the last record that carries one. */
  function LastUsage(recs: seq<StreamRecord>): (r: Option<Usage>)
    ensures r.None? <==> forall i | 0 <= i < |recs| :: recs[i].usage.None?
    ensures r.Some? ==> exists i | 0 <= i < |recs| ::
                          recs[i].usage == r && forall j | i < j < |recs| :: recs[j].usage.None?
    decreases |recs|
  {
    if |recs| == 0 then None
    else
      var later := LastUsage(recs[1..]);
      if later.Some? then
        var i :| 0 <= i < |recs[1..]| && recs[1..][i].usage == later
                 && forall j | i < j < |recs[1..]| :: recs[1..][j].usage.None?;
        assert recs[i + 1].usage == later;
        later
      else
        assert forall j | 0 < j < |recs| :: recs[j].usage == recs[1..][j - 1].usage;
        recs[0].usage
  }

  lemma {:induction false} RecordsAppend(decode: Decoder, a: seq<bytes>, b: seq<bytes>)
    ensures Records(decode, a + b) == Records(decode, a) + Records(decode, b)
    decreases |a|
  {
    if |a| == 0 {
      assert a + b == b;
    } else {
      assert (a + b)[1..] == a[1..] + b;
      RecordsAppend(decode, a[1..], b);
    }
  }

  /**
   * The fold's meaning: starting from `acc`, the text grows by the fragments of
   * the decoded records in order, and the counters end as the last usage seen,
   * or stay as they were when no record carries usage.
   */
  lemma {:induction false} FoldMeaning(decode: Decoder, acc: Parsed, lines: seq<bytes>)
    ensures Fold(decode, acc, lines).content == acc.content + Text(Records(decode, lines))
    ensures Fold(decode, acc, lines).Tokens() == LastUsage(Records(decode, lines)).GetOr(acc.Tokens())
    decreases |lines|
  {
    if |lines| == 0 {
    } else {
      var head := Decoded(decode, lines[0]);
      var tail := Records(decode, lines[1..]);
      var next := Step(decode, acc, lines[0]);
      FoldMeaning(decode, next, lines[1..]);
      StepMeaning(decode, acc, lines[0]);
      assert Records(decode, lines) == head + tail;
      FoldCombine(acc, next, Fold(decode, acc, lines), head, tail);
    }
  }

  /** Accumulating `head` and then `tail` is accumulating `head + tail`. */
  lemma FoldCombine(acc: Parsed, next: Parsed, final: Parsed, head: seq<StreamRecord>, tail: seq<StreamRecord>)
    requires next.content == acc.content + Text(head)
    requires next.Tokens() == LastUsage(head).GetOr(acc.Tokens())
    requires final.content == next.content + Text(tail)
    requires final.Tokens() == LastUsage(tail).GetOr(next.Tokens())
    ensures final.content == acc.content + Text(head + tail)
    ensures final.Tokens() == LastUsage(head + tail).GetOr(acc.Tokens())
  {
    TextCombine(acc.content, next.content, final.content, head, tail);
    UsageCombine(acc.Tokens(), next.Tokens(), final.Tokens(), head, tail);
  }

  /** The text after `head` and then `tail` is the text after `head + tail`. */
  lemma TextCombine(acc: string, next: string, final: string, head: seq<StreamRecord>, tail: seq<StreamRecord>)
    requires next == acc + Text(head)
    requires final == next + Text(tail)
    ensures final == acc + Text(head + tail)
  {
    TextAppend(head, tail);
  }

  /** The counters after `head` and then `tail` are those after `head + tail`. */
  lemma UsageCombine(acc: Usage, next: Usage, final: Usage, head: seq<StreamRecord>, tail: seq<StreamRecord>)
    requires next == LastUsage(head).GetOr(acc)
    requires final == LastUsage(tail).GetOr(next)
    ensures final == LastUsage(head + tail).GetOr(acc)
  {
    LastUsageAppend(head, tail);
  }

  /** One step of the fold adds the fragment of the line's record and takes over its usage, if any. */
  lemma StepMeaning(decode: Decoder, acc: Parsed, line: bytes)
    ensures Step(decode, acc, line).content == acc.content + Text(Decoded(decode, line))
    ensures Step(decode, acc, line).Tokens() == LastUsage(Decoded(decode, line)).GetOr(acc.Tokens())
  {
    var head := Decoded(decode, line);
    if |head| == 1 {
      assert Text(head) == Fragment(head[0]) + Text(head[1..]);
      assert LastUsage(head[1..]) == None;
    }
  }

  lemma {:induction false} TextAppend(a: seq<StreamRecord>, b: seq<StreamRecord>)
    ensures Text(a + b) == Text(a) + Text(b)
    decreases |a|
  {
    if |a| == 0 {
      assert a + b == b;
    } else {
      assert (a + b)[1..] == a[1..] + b;
      TextAppend(a[1..], b);
    }
  }

  lemma {:induction false} LastUsageAppend(a: seq<StreamRecord>, b: seq<StreamRecord>)
    ensures LastUsage(a + b) == if LastUsage(b).Some? then LastUsage(b) else LastUsage(a)
    decreases |a|
  {
    if |a| == 0 {
      assert a + b == b;
    } else {
      assert (a + b)[1..] == a[1..] + b;
      LastUsageAppend(a[1..], b);
    }
  }

  /**
   * The reconstruction of a buffer: its text is the in-order concatenation of
   * the first-choice delta contents of the decodable data lines, and its
   * counters are those of the last decoded record with usage (zero if none).
   */
  lemma {:induction false} ParseMeaning(decode: Decoder, buffer: bytes)
    ensures Parse(decode, buffer).content == Text(Records(decode, Split(buffer)))
    ensures Parse(decode, buffer).Tokens() == LastUsage(Records(decode, Split(buffer))).GetOr(Usage(0, 0, 0))
  {
    var lines := Split(buffer);
    assert Parse(decode, buffer) == Fold(decode, Start, lines);
    FoldMeaning(decode, Start, lines);
  }

  // ---------------------------------------------------------------------------
  // Buffers made of complete lines
  // ---------------------------------------------------------------------------

  /** A line as the relay reads it: newline-terminated with no earlier newline. */
  predicate IsLine(line: bytes) {
    |line| >= 1 && line[|line| - 1] == NL && NL !in line[..|line| - 1]
  }

  /** The lines without their terminating newlines. */
  function Bodies(lines: seq<bytes>): (r: seq<bytes>)
    requires forall i | 0 <= i < |lines| :: IsLine(lines[i])
    ensures |r| == |lines|
    ensures forall i | 0 <= i < |r| :: NL !in r[i] && lines[i] == r[i] + [NL]
    decreases |lines|
  {
    if |lines| == 0 then []
    else
      assert IsLine(lines[0]);
      var body := lines[0][..|lines[0]| - 1];
      assert lines[0] == body + [NL];
      var rest := Bodies(lines[1..]);
      assert forall i | 0 < i < |lines| :: lines[i] == lines[1..][i - 1];
      [body] + rest
  }

  /** The buffer of complete lines splits into their bodies followed by one empty piece. */
  lemma {:induction false} SplitLines(lines: seq<bytes>)
    requires forall i | 0 <= i < |lines| :: IsLine(lines[i])
    ensures Split(Flatten(lines)) == Bodies(lines) + [[]]
  {
    JoinLines(lines);
    SplitJoin(Bodies(lines) + [[]]);
  }

  lemma {:induction false} JoinLines(lines: seq<bytes>)
    requires forall i | 0 <= i < |lines| :: IsLine(lines[i])
    ensures Join(Bodies(lines) + [[]]) == Flatten(lines)
    decreases |lines|
  {
    if |lines| > 0 {
      JoinLines(lines[1..]);
      var ps := Bodies(lines) + [[]];
      assert ps[0] == Bodies(lines)[0];
      assert ps[1..] == Bodies(lines[1..]) + [[]];
      assert lines[0] == Bodies(lines)[0] + [NL];
    }
  }

  /**
   * What the relay persists, stated per relayed line: parsing a buffer of
   * complete lines yields the fragments of the decodable data lines among them,
   * in order, and the last usage among them.
   */
  lemma {:induction false} ParseLines(decode: Decoder, lines: seq<bytes>)
    requires forall i | 0 <= i < |lines| :: IsLine(lines[i])
    ensures Parse(decode, Flatten(lines)).content == Text(Records(decode, Bodies(lines)))
    ensures Parse(decode, Flatten(lines)).Tokens() == LastUsage(Records(decode, Bodies(lines))).GetOr(Usage(0, 0, 0))
  {
    SplitLines(lines);
    ParseMeaning(decode, Flatten(lines));
    RecordsAppend(decode, Bodies(lines), [[]]);
    assert Records(decode, [[]]) == [];
    assert Records(decode, Bodies(lines)) + [] == Records(decode, Bodies(lines));
  }

  /**
   * Parsing is incremental over complete lines: the text of a buffer extended
   * by one more line is the old text followed by that line's contribution, so
   * a consumer parsing line by line as they are relayed would persist the same
   * text as the parse of the whole buffer.
   */
  lemma {:induction false} ParseExtend(decode: Decoder, lines: seq<bytes>, line: bytes)
    requires forall i | 0 <= i < |lines| :: IsLine(lines[i])
    requires IsLine(line)
    ensures Parse(decode, Flatten(lines + [line])).content
         == Parse(decode, Flatten(lines)).content + Text(Decoded(decode, line[..|line| - 1]))
  {
    var body := line[..|line| - 1];
    var bs := Bodies(lines);
    BodiesAppend(lines, [line]);
    assert Bodies([line]) == [body];
    ParseLines(decode, lines);
    ParseLines(decode, lines + [line]);
    RecordsAppend(decode, bs, [body]);
    assert Records(decode, [body]) == Decoded(decode, body) by {
      assert [body][1..] == [];
    }
    TextAppend(Records(decode, bs), Decoded(decode, body));
  }

  /**
   * Two decodable data lines carrying "Hel" and "lo", then "data: [DONE]":
   * the reconstructed text is "Hello" and, with no usage object anywhere, the
   * counters stay zero.
   */
  lemma HelloScenario(decode: Decoder, p1: bytes, p2: bytes, r1: StreamRecord, r2: StreamRecord)
    requires NL !in p1 && NL !in p2 && p1 != DoneMarker && p2 != DoneMarker
    requires decode(p1) == Some(r1) && decode(p2) == Some(r2)
    requires Fragment(r1) == "Hel" && Fragment(r2) == "lo" && r1.usage.None? && r2.usage.None?
    ensures var buffer := Flatten([DataPrefix + p1 + [NL], DataPrefix + p2 + [NL], DataPrefix + DoneMarker + [NL]]);
            Parse(decode, buffer).content == "Hello" && Parse(decode, buffer).Tokens() == Usage(0, 0, 0)
  {
    var b1, b2, b3 := DataPrefix + p1, DataPrefix + p2, DataPrefix + DoneMarker;
    DataLine(p1);
    DataLine(p2);
    DataLine(DoneMarker);
    var lines := [b1 + [NL], b2 + [NL], b3 + [NL]];
    ParseLines(decode, lines);
    assert Bodies(lines) == [b1, b2, b3] by {
      assert lines[1..] == [b2 + [NL], b3 + [NL]];
    }
    HelloRecords(decode, b1, b2, b3, r1, r2);
  }

  lemma HelloRecords(decode: Decoder, b1: bytes, b2: bytes, b3: bytes, r1: StreamRecord, r2: StreamRecord)
    requires Decoded(decode, b1) == [r1] && Decoded(decode, b2) == [r2] && Decoded(decode, b3) == []
    requires Fragment(r1) == "Hel" && Fragment(r2) == "lo" && r1.usage.None? && r2.usage.None?
    ensures Text(Records(decode, [b1, b2, b3])) == "Hello"
    ensures LastUsage(Records(decode, [b1, b2, b3])) == None
  {
    assert [b1, b2, b3][1..] == [b2, b3] && [b2, b3][1..] == [b3] && [b3][1..] == [];
    assert Records(decode, [b3]) == [];
    assert Records(decode, [b2, b3]) == [r2];
    assert Records(decode, [b1, b2, b3]) == [r1, r2];
    assert [r1, r2][1..] == [r2] && [r2][1..] == [];
    assert Text([r2]) == "lo" + "";
    assert Text([r1, r2]) == "Hel" + Text([r2]);
  }

  /** A `data:` line: the prefix, a payload without newline, and the newline. */
  lemma DataLine(p: bytes)
    requires NL !in p
    ensures IsLine(DataPrefix + p + [NL])
    ensures Payload(DataPrefix + p) == if p == DoneMarker then None else Some(p)
  {
    var body := DataPrefix + p;
    assert NL !in body;
    assert (body + [NL])[..|body|] == body;
    assert body[..|DataPrefix|] == DataPrefix && body[|DataPrefix|..] == p;
  }

  lemma BodiesAppend(a: seq<bytes>, b: seq<bytes>)
    requires forall i | 0 <= i < |a| :: IsLine(a[i])
    requires forall i | 0 <= i < |b| :: IsLine(b[i])
    ensures forall i | 0 <= i < |a + b| :: IsLine((a + b)[i])
    ensures Bodies(a + b) == Bodies(a) + Bodies(b)
  {
    LinesAppend(a, b);
    var x, y := Bodies(a + b), Bodies(a) + Bodies(b);
    forall i | 0 <= i < |x|
      ensures x[i] == y[i]
    {
      BodyAt(a, b, i);
    }
  }

  lemma LinesAppend(a: seq<bytes>, b: seq<bytes>)
    requires forall i | 0 <= i < |a| :: IsLine(a[i])
    requires forall i | 0 <= i < |b| :: IsLine(b[i])
    ensures forall i | 0 <= i < |a + b| :: IsLine((a + b)[i])
  {
    forall i | 0 <= i < |a + b|
      ensures IsLine((a + b)[i])
    {
      if i < |a| { assert (a + b)[i] == a[i]; } else { assert (a + b)[i] == b[i - |a|]; }
    }
  }

  /** The body of the i-th line of `a + b` is the i-th body of `a` followed by the bodies of `b`. */
  lemma BodyAt(a: seq<bytes>, b: seq<bytes>, i: nat)
    requires forall k | 0 <= k < |a| :: IsLine(a[k])
    requires forall k | 0 <= k < |b| :: IsLine(b[k])
    requires forall k | 0 <= k < |a + b| :: IsLine((a + b)[k])
    requires i < |a| + |b|
    ensures Bodies(a + b)[i] == (Bodies(a) + Bodies(b))[i]
  {
    var u := Bodies(a + b)[i];
    var v := (Bodies(a) + Bodies(b))[i];
    if i < |a| {
      assert (a + b)[i] == a[i] && v == Bodies(a)[i];
    } else {
      assert (a + b)[i] == b[i - |a|] && v == Bodies(b)[i - |a|];
    }
    BodyUnique(u, v);
  }

  /** A line has one body: the line without its final newline. */
  lemma BodyUnique(u: bytes, v: bytes)
    requires u + [NL] == v + [NL]
    ensures u == v
  {
    assert u == (u + [NL])[..|u|];
    assert v == (v + [NL])[..|v|];
  }
}
